=== FILE: README.md ===
# AI model router — a Dafny model

This project models the decision logic of a small Python router. The router
sends each natural-language prompt to one of a catalogue of backend language
models.

- A prompt is first analysed into a record: the capabilities it needs, a
  complexity level, a token estimate and a priority (speed, cost or
  accuracy). A language model produces this record. When that call fails,
  a fixed fallback record is used instead.
- The router keeps only the registered models that cover every capability,
  accept the complexity and admit the token estimate.
- It stably sorts the survivors by the priority's key and takes the first.
  When nothing survives, it returns the literal name "gpt-4".
- Every routed prompt is appended to a history. Statistics are tallied from
  that history.
- A factory builds models from presets and from configuration records. Four
  predefined configurations are built into a registry.

The modules follow the program's structure:

| file | module | what it holds |
|---|---|---|
| wrappers.dfy | `Wrappers` | `Option` and `Result` |
| taxonomy.dfy | `Taxonomy` | the `ModelCapability` and `ComplexityLevel` enums, their string values and parsers, and the rank table |
| descriptors.dfy | `Descriptors` | `CustomModel`, `can_handle_complexity`, and the info record |
| registry.dfy | `ModelRegistry` | the insertion-ordered dict of models: lookup, put, remove, copy, info |
| text.dfy | `Text` | Python string order, `", ".join` and its inverse split |
| selection.dfy | `Selection` | `_select_model`: parse, filter, fallback, stable sort, head |
| analyzer.dfy | `Analyzer` | the fallback of `analyze_prompt` and `len(prompt.split()) * 2` |
| history.dfy | `History` | `_get_routing_decision`, the history record, `get_routing_stats` |
| router.dfy | `Router` | the three built-in models, the constructor, `route_prompt`, and the demonstration loop |
| factory.dfy | `Factory` | `ModelFactory`, the configuration records, and the predefined models |
| scenarios.dfy | `Scenarios` | concrete routing outcomes on the built-in registry and on a two-model registry |

A Python dict keeps insertion order, and that order decides ties after a
stable sort. The registry is therefore a sequence of `Entry(key, model)`
with distinct keys, not a Dafny `map`. Costs are `real`. The language
model's reply is a parameter of `RoutePrompt`: either the parsed record or
the text of the exception that was raised.

### Behaviour of the code worth knowing

The model follows the code, including where its behaviour is surprising.

- Under the accuracy priority (and under any unrecognised priority), the
  code sorts by the threshold's *string* value, descending. The string order
  is "expert" < "high" < "low" < "medium". So "medium" ranks first, then
  "low", "high" and "expert". A rank-based sort would put "expert" first;
  this one puts it last.
  `Selection.AccuracyPicksGreatestThresholdString` states what the code does.
- The code has no secondary tie-breaks: equal keys keep registry insertion
  order.
- An empty capability list is accepted and constrains nothing.
- There is no fallback flag. The fallback is just the name "gpt-4", and it
  may not even be registered. `Scenarios.FallbackNameMayBeUnregistered`
  shows this.
- Descriptor invariants are never checked: capabilities may be empty and
  token limits may be zero or negative.

## Model

| member | source | states |
|---|---|---|
| Taxonomy.AllCapabilitiesComplete | model_router.py:18-28 | the built-in capability list names all eight enum members |
| Taxonomy.ParseCapability | model_router.py:18-28 | `ModelCapability(s)` finds exactly the member whose value is `s`, and fails (ValueError) for any other string |
| Taxonomy.ParseCapabilities | model_router.py:268 | the list comprehension succeeds iff every string is a capability value; then the values of the result are the input; otherwise the error is the first unknown string |
| Taxonomy.ParseCapabilityValues | model_router.py:268 | parsing the `.value`s of any capability list gives that list back |
| Taxonomy.ParseComplexity | model_router.py:30-35 | `ComplexityLevel(s)` finds exactly the level whose value is `s`, and fails otherwise |
| Taxonomy.RankIsTotalOrder | model_router.py:111-116 | the rank table is injective and orders low < medium < high < expert |
| Descriptors.CanHandleComplexity | model_router.py:110-117 | a model handles a level iff the level is among those at or below its ceiling |
| Descriptors.CeilingReflexiveMonotone | model_router.py:110-117 | a ceiling admits its own level, and raising the ceiling never loses a level |
| Descriptors.Info | model_router.py:315-326 | the info record reports every field; its capability and threshold strings parse back to the model's enums |
| ModelRegistry.ValidCons | model_router.py:183-248 | keys stay distinct iff the head key is fresh and the tail's keys are distinct |
| ModelRegistry.Lookup | model_router.py:311-314 | a name is found iff it is a key |
| ModelRegistry.LookupFound | model_router.py:311-314 | what a lookup finds is a model stored in the dict under that name |
| ModelRegistry.LookupEntry | model_router.py:314 | with distinct keys, looking up an entry's key returns that entry's model |
| ModelRegistry.Put | model_router.py:255-257 | after assigning, the key maps to the new model and no other key changes; an existing key keeps its position, and a new key is appended |
| ModelRegistry.PutValid | model_router.py:255-257 | assignment keeps keys distinct |
| ModelRegistry.PutAll | model_router.py:250-253 | after adding a batch, a key is registered iff it was registered before or is in the batch |
| ModelRegistry.PutAllSpec | model_router.py:250-253 | after adding a batch, each key maps to the batch's model if the batch has it, else to the old one; the old keys keep their order in front, followed by the batch's new keys in the batch's order; keys stay distinct |
| ModelRegistry.PutAllKeys | model_router.py:250-253 | adding a batch appends exactly its keys that were not present, in the batch's order, behind the old keys |
| ModelRegistry.Remove | model_router.py:259-264 | the flag is true iff the name was present; other keys are unchanged; an absent name leaves the dict as it was |
| ModelRegistry.RemoveAt | model_router.py:259-264 | removing the key at a position that no earlier entry shares (any position when keys are distinct) deletes exactly that position |
| ModelRegistry.RemoveSpec | model_router.py:259-264 | afterwards the name is absent, keys stay distinct, and the dict has one entry fewer exactly when the name was present |
| ModelRegistry.AvailableModels | model_router.py:306-308 | the copy has the same names in the same iteration order, each under the same model, and keeps keys distinct |
| ModelRegistry.GetModelInfo | model_router.py:310-326 | None iff the name is not registered, otherwise the info record of its model |
| Text.LexLessIrreflexive | model_router.py:302 | Python's string `<`, used by the accuracy sort, is irreflexive |
| Text.SplitJoin | model_factory.py:99 | splitting a `", "`-join of comma-free pieces on `", "` gives the pieces back |
| Selection.ParseAnalysis | model_router.py:268-271 | parsing succeeds iff every capability string and the complexity string parse; on success the values round-trip; on failure it names the first unknown capability string of the analysis, the one the list comprehension raises on, or, when every capability parses, the unknown complexity string |
| Selection.SuitableModels | model_router.py:274-290 | an entry is kept iff it is registered and passes all three checks of the filter; the kept entries are a subsequence of the registry, so they keep registry order |
| Selection.CeilingFits | model_router.py:287 | a fractional estimate is within an integer limit iff its ceiling is, and the ceiling is less than one above the estimate |
| Selection.ThresholdStringOrder | model_router.py:302 | comparing threshold strings is the fixed order expert < high < low < medium |
| Selection.BeforeStrictWeakOrder | model_router.py:296-302 | each priority's key comparison is irreflexive, asymmetric, and has transitive incomparability, so stable sorting by it is well defined |
| Selection.InsertSorted | model_router.py:296-302 | stable insertion keeps a sorted list sorted |
| Selection.SortByPriority | model_router.py:296-302 | the sort is a permutation of the suitable entries, and no later entry's key sorts strictly before an earlier one's |
| Selection.SortedHeadIsEarliestBest | model_router.py:296-304 | when something is suitable, the sorted list is non-empty, and its head is a suitable entry that no suitable entry beats, the earliest such in registry order |
| Selection.Choose | model_router.py:292-304 | the fallback name when nothing is suitable, otherwise the key of the earliest best suitable entry |
| Selection.SelectModel | model_router.py:266-304 | fails iff the analysis does not parse; any name other than the fallback is registered |
| Selection.ChooseEarliestBest | model_router.py:296-304 | whichever position is earliest best, its key is what is chosen |
| Selection.ChooseIsEarliestBest | model_router.py:274-304 | with distinct keys the chosen name is registered, and its entry is the earliest best |
| Selection.SelectHonoursFilter | model_router.py:266-304 | a parsed analysis always selects; with an empty registry or nothing suitable the result is the fallback; otherwise the selected model covers every capability, handles the complexity and admits the token estimate |
| Selection.EmptyCapabilitiesUnconstrained | model_router.py:278-289 | an empty capability list parses, and only the ceiling and the token limit filter |
| Selection.SpeedPicksEarliestFastest | model_router.py:297-298 | under "speed" the chosen model has the least response time among suitable ones, and every earlier suitable one is strictly slower |
| Selection.CostPicksEarliestCheapest | model_router.py:299-300 | under "cost" the chosen model has the least cost among suitable ones, and every earlier suitable one is strictly dearer |
| Selection.AccuracyPicksGreatestThresholdString | model_router.py:301-302 | under any other priority the chosen threshold string is the greatest among suitable ones, and strictly greater than every earlier suitable one's |
| Selection.ThresholdStringsAscending | model_router.py:30-35 | the threshold strings ascend as "expert", "high", "low", "medium" |
| Analyzer.Words | model_router.py:164 | each word of `str.split()` is non-empty and holds no whitespace; when the prompt does not start with whitespace, its first word starts with the prompt's first character |
| Analyzer.WordsKeepNonSpace | model_router.py:164 | the words of `str.split()`, concatenated, are the prompt with its whitespace removed |
| Analyzer.WordsCountWordEnds | model_router.py:164 | there are as many words as positions where a word ends |
| Analyzer.EstimatedTokens | model_router.py:164 | the estimate is twice the number of words: even, and at most twice the prompt's length |
| Analyzer.FallbackAnalysis | model_router.py:159-167 | the fallback record parses to text generation, medium, the word-based estimate and accuracy |
| Analyzer.AnalyzePrompt | model_router.py:149-167 | a reply is returned as is; a failure gives the record with capabilities ["text_generation"], complexity "medium", the word-based estimate and priority "accuracy", which parses to exactly that requirement |
| History.RoutingDecision | model_router.py:350-360 | the tier is one of low, medium or high; it is "high" iff the complexity is "high" or "expert", and "medium" iff it is "medium" |
| History.DecisionFollowsRank | model_router.py:350-360 | on a parsed level the tier is "low" for rank 1, "medium" for rank 2, and "high" for ranks 3 and 4 |
| History.CountAppend | model_router.py:372-378 | counting over a concatenation adds the counts |
| History.CountPositive | model_router.py:372-378 | an element is counted at least once iff it occurs |
| History.TallySum | model_router.py:370-379 | the counts of a `{x: xs.count(x) for x in set(xs)}` tally add up to the list's length |
| History.Tally | model_router.py:372-379 | the tally of a column has one key per distinct value, and each key maps to the number of times it occurs |
| History.GetRoutingStats | model_router.py:362-380 | an empty history gives only a zero total. Otherwise the total is the history's length; the usage keys are exactly the selected names and the distribution keys exactly the recorded tiers; each entry is the number of records with that key; both tallies sum to the total |
| History.StatsCount | model_router.py:370-379 | the count the statistics give any name or tier, zero when absent, is the number of records carrying it |
| History.DecisionKeysAreTiers | model_router.py:370-373 | the decision distribution has only tier keys |
| History.AppendCounts | model_router.py:346 | one appended record adds one route, one use of its model and one decision of its tier in the statistics; every other count is unchanged |
| Router.DefaultModelsFacts | model_router.py:183-248 | the built-in registry has the three keys in order, distinct; every model has every capability; "gpt-4" is among the keys |
| Router.NewRouter | model_router.py:173-181 | the history starts empty; each name maps to the custom model if given, else to the built-in one; the keys are the built-in ones in order, followed by the new custom names in the custom dict's order |
| Router.RoutePrompt | model_router.py:328-348 | routing fails iff the analysis does not parse, and then the error raised is that parse error; a failed reply never fails. On success the registry is unchanged and exactly one record is appended. That record holds the prompt, the analysis and the selected name; its info is `get_model_info` of that name, None iff the name is unregistered; its tier is `_get_routing_decision` of the complexity, "low", "medium" or "high" by rank 1, 2 or 3-4 |
| Router.RoutePreservesValid | model_router.py:328-348 | routing keeps keys distinct and every recorded decision a tier |
| Router.RouteUpdatesStats | model_router.py:346 | after a route the returned statistics count one more route, one more use of the selected model and one more decision of its tier; no other count changes |
| Router.RoutablePromptsStep | model_router.py:405-420 | one more request adds its prompt to the routed ones iff it is routable |
| Router.RouteOrSkip | model_router.py:410-420 | a routable request appends one record for its prompt; an unroutable one is caught and changes nothing |
| Router.RouteBatch | model_router.py:405-420 | routing or skipping each request of a batch in turn never changes the registry |
| Router.RouteBatchSpec | model_router.py:405-420 | routing or skipping each request in turn leaves the registry alone, keeps the old history as a prefix, records behind it exactly the routable prompts in order, and keeps validity |
| Router.RouteAll | model_router.py:405-420 | the loop routes the batch request by request with errors caught, and counts the routed ones. It records exactly the routable prompts, in order, after the old history. The registry is unchanged, the total counts them, and validity is kept |
| Factory.CreateFastModel | model_factory.py:12-31 | the fast preset keeps the caller's name, id, provider, token limit, cost and latency, has exactly the capability list text generation, summarisation, question answering, in this order, has ceiling "low", and its fixed description |
| Factory.BalancedCapabilitiesComplete | model_factory.py:43-51 | the balanced list names every capability except translation |
| Factory.CreateBalancedModel | model_factory.py:33-56 | the balanced preset keeps the caller's name, id, provider, token limit, cost and latency, has exactly the capability list text generation, code generation, analysis, creative writing, technical writing, summarisation, question answering, in this order (every capability but translation), has ceiling "medium", and its fixed description |
| Factory.CreateExpertModel | model_factory.py:58-82 | the expert preset keeps the caller's name, id, provider, token limit, cost and latency, has exactly the list of all eight capabilities in their declaration order, has ceiling "expert", and its fixed description |
| Factory.FastModelSuitability | model_factory.py:12-31 | a fast model passes the filter iff the request needs only its three capabilities, is low, and fits its limit |
| Factory.BalancedModelSuitability | model_factory.py:33-56 | a balanced model passes the filter iff the request needs no translation, is at most medium, and fits its limit |
| Factory.ExpertModelSuitability | model_factory.py:58-82 | an expert model passes the filter iff the request fits its limit |
| Factory.SpecializedDescription | model_factory.py:99 | a non-empty description is kept as given |
| Factory.CreateSpecializedModel | model_factory.py:84-100 | the caller's name, id, provider, token limit, cost, latency, capabilities and ceiling are kept; a non-empty description is kept; otherwise the description is the prefix followed by a list that splits and parses back to the capabilities |
| Factory.CapabilityValueHasNoComma | model_router.py:18-28 | no capability value contains a comma |
| Factory.SpecializedDescriptionRoundTrip | model_factory.py:99 | the default description is the prefix followed by text that splits on `", "` and parses back to the capability list |
| Factory.CreateModelFromConfig | model_factory.py:102-115 | succeeds iff every required key is present and both enum fields parse. Then the model's configuration is the input with provider and description defaulted. A missing key error names an absent key. A capability error names the first bad value of the list, and a threshold error names the bad threshold |
| Factory.ConfigErrorOrder | model_factory.py:105-115 | the error raised is the first in keyword-argument order: a missing key only when every required key read before it is present, an unknown capability only when name, id and token limit are present, and an unknown threshold only when the capabilities parse |
| Factory.ConfigRoundTrip | model_factory.py:102-115 | a model's own configuration rebuilds exactly that model |
| Factory.ToConfigInjective | model_factory.py:102-115 | two models with the same configuration are equal |
| Factory.AllParseSnoc | model_factory.py:117-124 | a list parses throughout iff its prefix does and its last configuration does |
| Factory.CreateModelsFromConfigs | model_factory.py:117-124 | the batch succeeds iff every configuration parses, and the result has distinct keys |
| Factory.FirstConfigErrorAborts | model_factory.py:117-124 | a failed batch reports the error of the first failing configuration: every configuration before it parses |
| Factory.LastConfigWins | model_factory.py:117-124 | each id maps to the model of the last configuration with that id |
| Factory.BatchSnoc | model_factory.py:117-124 | a parsing batch is its prefix's batch with the last model put under its id |
| Factory.DistinctIdsKeepOrder | model_factory.py:117-124 | with distinct ids, position i of the result holds the i-th model under its id |
| Factory.StoredBatch | model_factory.py:117-124 | with distinct ids, the batch result is the registry storing every model in order |
| Factory.PredefinedConfigsDescribeModels | model_factory.py:128-176 | each predefined configuration is exactly the configuration of its model |
| Factory.PredefinedConfigsAllParse | model_factory.py:128-176 | each predefined configuration parses into the model registered under its id |
| Factory.PredefinedIdsDistinct | model_factory.py:128-176 | the predefined ids are pairwise distinct |
| Factory.PredefinedConfigsParse | model_factory.py:179-181 | building the predefined configurations succeeds with the four models |
| Factory.GetPredefinedModels | model_factory.py:179-181 | the predefined registry has the four ids in declaration order, distinct, with their models |
| Scenarios.DefaultsCoverCapabilities | model_router.py:183-248 | on the built-in registry the capability check never excludes a model |
| Scenarios.DefaultsPickGpt35UpToHigh | model_router.py:266-304 | with the built-ins, any request up to "high" within 4096 tokens goes to "gpt-3.5-turbo", whatever the priority |
| Scenarios.DefaultsExpertWithinGpt4Limit | model_router.py:266-304 | an expert request within 8192 tokens goes to "gpt-4-turbo" under speed or cost, and to "gpt-4" otherwise |
| Scenarios.DefaultsLargeRequestsGoToTurbo | model_router.py:266-304 | between 8192 and 128000 tokens only "gpt-4-turbo" is suitable |
| Scenarios.DefaultsOversizedFallsBack | model_router.py:292-294 | beyond 128000 tokens nothing is suitable, and the fallback name is returned |
| Scenarios.FailedCallRoutesToGpt35 | model_router.py:328-348 | on a fresh router a failed call with at most 2048 words routes to "gpt-3.5-turbo" with tier "medium" and its info |
| Scenarios.FallbackNameMayBeUnregistered | model_router.py:292-294 | after "gpt-4" is removed, an oversized request still selects "gpt-4", with no model info |
| Scenarios.CheaperEligibleModelWins | model_router.py:299-300 | of two eligible models, the cost priority picks the cheaper |
| Scenarios.OnlyExpertCeilingQualifies | model_router.py:283-284 | an expert request only fits the expert-ceiling model |
| Scenarios.UnsupportedCapabilityFallsBack | model_router.py:278-294 | a capability no model has leads to the fallback name |

## Left out

- The language model call, its prompt template and `json.loads` are left out; they are external I/O. The reply is a parameter of `Router.RoutePrompt`: either the parsed record or the exception's text.
- The async machinery, the API key, the environment lookup, and the `print` calls of the demonstration loop are left out. `Router.RouteAll` keeps the loop's control flow only: route each prompt and catch a routing error.
- The analysis record is typed, so a key the reply leaves out or a value of another JSON type cannot be expressed. Python handles these as follows:
  - a missing key raises KeyError (model_router.py:268-271);
  - a `capabilities` number or null raises TypeError at once (model_router.py:268);
  - a non-empty `capabilities` string raises ValueError on its first character, since no capability value is one character long;
  - an empty string is accepted as no capabilities;
  - a `capabilities` object has its keys taken as the capability list;
  - a `complexity` that is not a string, such as 3, raises ValueError (model_router.py:269);
  - a non-numeric `estimated_tokens` raises TypeError only at the token comparison (model_router.py:287), so only when some model is registered.

  Only the unknown-enum-string errors of a well-typed reply are modelled.
- Selection.ParseAnalysis: the token estimate is an integer, while a JSON reply may carry a fractional one, such as 150.5, which Python compares as it is at model_router.py:287. No selection is lost: every token limit is an integer, so a fractional estimate fits a limit exactly when its ceiling does (`Selection.CeilingFits`).
- Factory.CreateModelFromConfig: the configuration record fixes each value's type, so some errors that Python raises at once cannot be expressed. Each of these is raised while the model is being built:
  - a `capabilities` number or null raises TypeError (model_factory.py:110);
  - a non-empty `capabilities` string raises ValueError on its first character;
  - an empty string is accepted as no capabilities;
  - a `capabilities` object has its keys taken as the list;
  - a `complexity_threshold` that is not one of the four strings, such as 3, raises ValueError (model_factory.py:111).

  Only the other keys' values of a wrong type are stored unchecked and fail later, if at all. The missing keys and the unknown enum strings are modelled.
- `ModelInterface` is a protocol. Every registered model here is a `CustomModel`, so a third-party class with its own `can_handle_complexity` is not modelled.
- The `ModelLimitation` and `ModelConfig` dataclasses are never used by the router and are left out.
- `config.py`, `example_usage.py` and the factory's `__main__` block are configuration and demonstration code, and are left out.
- `_get_routing_decision` computes `", ".join(analysis["capabilities"])` and never uses it. The join is left out.
- Floats are modelled as exact `real`s. The literal costs compare the same way in binary floating point, so the sort order is unaffected.
- Scenarios.CheaperEligibleModelWins: models A and B are illustrative, not taken from the source. Both are given 4096 tokens, so the request of 100 tokens fits both; a smaller limit would change which model is eligible.
- ModelRegistry.Lookup: its own ensures state only that a name is found iff it is a key. That the found model is stored under the name is stated by `ModelRegistry.LookupFound`, kept apart so the many proofs that unfold lookups stay small.
- Selection.SelectModel: the ensures state only the parse outcome and that the name is registered or the fallback. Which entry is chosen is stated by `Selection.Choose` and `Selection.ChooseIsEarliestBest`.
- Factory.SpecializedDescription: its own ensures cover only a given description. The default text is stated by `Factory.SpecializedDescriptionRoundTrip`, which needs a non-empty capability list (an empty one yields the bare prefix).
- `get_available_models` returns a shallow copy. Dafny values are immutable, so `ModelRegistry.AvailableModels` returns the registry itself, and the copy's independence from later mutation holds trivially.

=== FILE: analyzer.dfy ===
/**
  The part of `PromptAnalyzer.analyze_prompt` that is not the language
  model call: when the call or the JSON parse raises, a fixed fallback
  record is returned whose token estimate is twice the number of
  whitespace-separated words of the prompt (`len(prompt.split()) * 2`).
 */
module Analyzer {
  import opened Wrappers
  import opened Taxonomy
  import opened Selection

  /** The characters Python's `str.split()` with no argument splits on (`str.isspace`). */
  predicate IsSpace(c: char) {
    || ('\U{0009}' <= c <= '\U{000D}') || ('\U{001C}' <= c <= '\U{0020}')
    || c == '\U{0085}' || c == '\U{00A0}' || c == '\U{1680}'
    || ('\U{2000}' <= c <= '\U{200A}') || c == '\U{2028}' || c == '\U{2029}'
    || c == '\U{202F}' || c == '\U{205F}' || c == '\U{3000}'
  }

  /** A word: non-empty and free of whitespace. */
  predicate IsWord(w: string) {
    |w| > 0 && forall j :: 0 <= j < |w| ==> !IsSpace(w[j])
  }

  /** `s.split()`: the maximal runs of non-whitespace characters, in order. */
  function Words(s: string): (ws: seq<string>)
    ensures forall i :: 0 <= i < |ws| ==> IsWord(ws[i])
    ensures |s| > 0 && !IsSpace(s[0]) ==> |ws| > 0 && |ws[0]| > 0 && ws[0][0] == s[0]
  {
    if s == [] then []
    else if IsSpace(s[0]) then Words(s[1..])
    else
      var rest := Words(s[1..]);
      if |s| > 1 && !IsSpace(s[1]) then
        var first := [s[0]] + rest[0];
        assert forall j :: 1 <= j < |first| ==> first[j] == rest[0][j - 1];
        [first] + rest[1..]
      else [[s[0]]] + rest
  }

  /** The concatenation of a list of strings. */
  function Flatten(ws: seq<string>): string {
    if ws == [] then "" else ws[0] + Flatten(ws[1..])
  }

  /** The string with every whitespace character removed. */
  function NonSpace(s: string): string {
    if s == [] then "" else (if IsSpace(s[0]) then "" else [s[0]]) + NonSpace(s[1..])
  }

  /** The number of positions where a word ends: a non-space followed by a space or by the end. */
  function WordEnds(s: string): nat {
    if s == [] then 0
    else (if !IsSpace(s[0]) && (|s| == 1 || IsSpace(s[1])) then 1 else 0) + WordEnds(s[1..])
  }

  /** The words, put back together, are the prompt without its whitespace. */
  lemma {:induction false} WordsKeepNonSpace(s: string)
    ensures Flatten(Words(s)) == NonSpace(s)
  {
    if s != [] {
      WordsKeepNonSpace(s[1..]);
      if !IsSpace(s[0]) {
        var rest := Words(s[1..]);
        if |s| > 1 && !IsSpace(s[1]) {
          var first := [s[0]] + rest[0];
          assert Words(s) == [first] + rest[1..];
          assert ([first] + rest[1..])[1..] == rest[1..];
          assert Flatten(rest) == rest[0] + Flatten(rest[1..]);
          assert Flatten(Words(s)) == first + Flatten(rest[1..]);
        } else {
          assert ([[s[0]]] + rest)[1..] == rest;
        }
      }
    }
  }

  /** There is one word per word end. */
  lemma {:induction false} WordsCountWordEnds(s: string)
    ensures |Words(s)| == WordEnds(s)
  {
    if s != [] {
      WordsCountWordEnds(s[1..]);
    }
  }

  /** `len(prompt.split()) * 2`. */
  function EstimatedTokens(prompt: string): (n: nat)
    ensures n == 2 * WordEnds(prompt)
    ensures n % 2 == 0 && n <= 2 * |prompt|
  {
    WordsCountWordEnds(prompt);
    WordEndsBound(prompt);
    2 * |Words(prompt)|
  }

  /** A prompt has no more word ends than characters. */
  lemma {:induction false} WordEndsBound(s: string)
    ensures WordEnds(s) <= |s|
  {
    if s != [] {
      WordEndsBound(s[1..]);
    }
  }

  /** The record returned when the language model call or its JSON parse raises. */
  function FallbackAnalysis(prompt: string, error: string): (a: Analysis)
    ensures ParseAnalysis(a) == Success(Requirement([TextGeneration], Medium, EstimatedTokens(prompt), "accuracy"))
    ensures a.estimatedTokens == 2 * WordEnds(prompt)
  {
    assert ParseCapabilities(["text_generation"]) == Success([TextGeneration]) by {
      assert CapabilityValues([TextGeneration]) == ["text_generation"];
      ParseCapabilityValues([TextGeneration]);
    }
    Analysis(["text_generation"], "medium", EstimatedTokens(prompt), "accuracy",
             "Fallback analysis due to error: " + error)
  }

  /**
    `analyze_prompt`: the language model's parsed reply when there is one,
    otherwise the fallback record carrying the error's text.
   */
  function AnalyzePrompt(prompt: string, reply: Result<Analysis, string>): (a: Analysis)
    ensures reply.Failure? ==> ParseAnalysis(a).Success? && a.priority == "accuracy"
                               && a.estimatedTokens == 2 * WordEnds(prompt)
    ensures reply.Failure? ==>
      && a.capabilities == ["text_generation"] && a.complexity == "medium"
      && ParseAnalysis(a) == Success(Requirement([TextGeneration], Medium, EstimatedTokens(prompt), "accuracy"))
    ensures reply.Success? ==> a == reply.value
  {
    match reply
    case Success(analysis) => analysis
    case Failure(error) => FallbackAnalysis(prompt, error)
  }
}

=== FILE: descriptors.dfy ===
/**
  The model descriptor (`CustomModel`): one backend's name, provider,
  token limit, capability list, complexity ceiling, unit cost and expected
  latency, with the ceiling check `can_handle_complexity`.
 */
module Descriptors {
  import opened Wrappers
  import opened Taxonomy

  /**
    A registered model. Costs are only ever compared, so they are `real`;
    token limits and latencies are Python integers and are not range-checked
    by the source, so they are `int`.
   */
  datatype CustomModel = CustomModel(
    name: string,
    modelId: string,
    provider: string,
    maxTokens: int,
    capabilities: seq<Capability>,
    complexityThreshold: ComplexityLevel,
    costPerToken: real,
    responseTimeMs: int,
    description: string)

  /** The levels a ceiling admits, listed out level by level. */
  function LevelsUpTo(ceiling: ComplexityLevel): set<ComplexityLevel> {
    match ceiling
    case Low => {Low}
    case Medium => {Low, Medium}
    case High => {Low, Medium, High}
    case Expert => {Low, Medium, High, Expert}
  }

  /** `can_handle_complexity`: the ceiling's rank is at least the request's rank. */
  predicate CanHandleComplexity(m: CustomModel, c: ComplexityLevel)
    ensures CanHandleComplexity(m, c) <==> c in LevelsUpTo(m.complexityThreshold)
  {
    Rank(m.complexityThreshold) >= Rank(c)
  }

  /** Every ceiling admits its own level, and raising the ceiling never loses a level. */
  lemma CeilingReflexiveMonotone(m: CustomModel, m': CustomModel, c: ComplexityLevel)
    ensures m.complexityThreshold == c ==> CanHandleComplexity(m, c)
    ensures Rank(m.complexityThreshold) <= Rank(m'.complexityThreshold) && CanHandleComplexity(m, c)
            ==> CanHandleComplexity(m', c)
  {
  }

  /** The dictionary `get_model_info` returns for a present model. */
  datatype ModelInfo = ModelInfo(
    name: string,
    modelId: string,
    provider: string,
    maxTokens: int,
    capabilities: seq<string>,
    complexityThreshold: string,
    costPerToken: real,
    responseTimeMs: int,
    description: string)

  /** The info record of one model: enums are reported by their string values. */
  function Info(m: CustomModel): (info: ModelInfo)
    ensures ParseCapabilities(info.capabilities) == Success(m.capabilities)
    ensures ParseComplexity(info.complexityThreshold) == Some(m.complexityThreshold)
    ensures info.name == m.name && info.modelId == m.modelId && info.provider == m.provider
    ensures info.maxTokens == m.maxTokens && info.costPerToken == m.costPerToken
    ensures info.responseTimeMs == m.responseTimeMs && info.description == m.description
  {
    ParseCapabilityValues(m.capabilities);
    ModelInfo(m.name, m.modelId, m.provider, m.maxTokens, CapabilityValues(m.capabilities),
              ComplexityValue(m.complexityThreshold), m.costPerToken, m.responseTimeMs,
              m.description)
  }
}

=== FILE: factory.dfy ===
/**
  The model factory (`ModelFactory` and `get_predefined_models`): three
  presets and a specialised constructor, a parser from configuration
  records, a batch parser keyed by model id, and the four predefined
  configurations.
 */
module Factory {
  import opened Wrappers
  import opened Taxonomy
  import opened Descriptors
  import opened ModelRegistry
  import opened Selection
  import opened Text

  /** The provider every factory entry point defaults to. */
  const CustomProvider: string := "custom"

  const FastCapabilities: seq<Capability> := [TextGeneration, Summarization, QuestionAnswering]

  const BalancedCapabilities: seq<Capability> :=
    [TextGeneration, CodeGeneration, DataAnalysis, CreativeWriting, TechnicalWriting,
     Summarization, QuestionAnswering]

  /** The model carries the caller's identity, token limit, cost and latency unchanged. */
  predicate Carries(m: CustomModel, name: string, modelId: string, provider: string,
                    maxTokens: int, costPerToken: real, responseTimeMs: int) {
    && m.name == name && m.modelId == modelId && m.provider == provider
    && m.maxTokens == maxTokens && m.costPerToken == costPerToken && m.responseTimeMs == responseTimeMs
  }

  /** `create_fast_model`: low ceiling, three capabilities. */
  function CreateFastModel(name: string, modelId: string, provider: string := CustomProvider,
                           maxTokens: int := 2048, costPerToken: real := 0.0001,
                           responseTimeMs: int := 500): (m: CustomModel)
    ensures Carries(m, name, modelId, provider, maxTokens, costPerToken, responseTimeMs)
    ensures m.capabilities == [TextGeneration, Summarization, QuestionAnswering]
    ensures forall c :: c in m.capabilities <==> c == TextGeneration || c == Summarization || c == QuestionAnswering
    ensures ComplexityValue(m.complexityThreshold) == "low"
    ensures m.description == "Fast, cheap model for simple tasks"
  {
    CustomModel(name, modelId, provider, maxTokens, FastCapabilities, Low, costPerToken,
                responseTimeMs, "Fast, cheap model for simple tasks")
  }

  /** The balanced list names every capability but translation. */
  lemma BalancedCapabilitiesComplete()
    ensures forall c :: c in BalancedCapabilities <==> c != Translation
  {
    forall c | c != Translation
      ensures c in BalancedCapabilities
    {
      match c
      case TextGeneration =>
      case CodeGeneration =>
      case DataAnalysis =>
      case CreativeWriting =>
      case TechnicalWriting =>
      case Summarization =>
      case QuestionAnswering =>
    }
  }

  /** `create_balanced_model`: medium ceiling, every capability but translation. */
  function CreateBalancedModel(name: string, modelId: string, provider: string := CustomProvider,
                               maxTokens: int := 4096, costPerToken: real := 0.0005,
                               responseTimeMs: int := 1500): (m: CustomModel)
    ensures Carries(m, name, modelId, provider, maxTokens, costPerToken, responseTimeMs)
    ensures m.capabilities == [TextGeneration, CodeGeneration, DataAnalysis, CreativeWriting,
                               TechnicalWriting, Summarization, QuestionAnswering]
    ensures forall c :: c in m.capabilities <==> c != Translation
    ensures ComplexityValue(m.complexityThreshold) == "medium"
    ensures m.description == "Balanced model for medium complexity tasks"
  {
    BalancedCapabilitiesComplete();
    CustomModel(name, modelId, provider, maxTokens, BalancedCapabilities, Medium, costPerToken,
                responseTimeMs, "Balanced model for medium complexity tasks")
  }

  /** `create_expert_model`: expert ceiling, all eight capabilities. */
  function CreateExpertModel(name: string, modelId: string, provider: string := CustomProvider,
                             maxTokens: int := 8192, costPerToken: real := 0.002,
                             responseTimeMs: int := 3000): (m: CustomModel)
    ensures Carries(m, name, modelId, provider, maxTokens, costPerToken, responseTimeMs)
    ensures m.capabilities == [TextGeneration, CodeGeneration, DataAnalysis, CreativeWriting,
                               TechnicalWriting, Translation, Summarization, QuestionAnswering]
    ensures forall c: Capability :: c in m.capabilities
    ensures ComplexityValue(m.complexityThreshold) == "expert"
    ensures m.description == "Expert model for complex tasks"
  {
    assert forall c: Capability :: c in AllCapabilities by {
      forall c: Capability {
        AllCapabilitiesComplete(c);
      }
    }
    CustomModel(name, modelId, provider, maxTokens, AllCapabilities, Expert, costPerToken,
                responseTimeMs, "Expert model for complex tasks")
  }

  /**
    A fast model passes the filter exactly for low-complexity requests that
    need nothing beyond text generation, summarization and question
    answering and fit its token limit.
   */
  lemma FastModelSuitability(req: Requirement, name: string, modelId: string, provider: string,
                             maxTokens: int, costPerToken: real, responseTimeMs: int)
    ensures Suitable(CreateFastModel(name, modelId, provider, maxTokens, costPerToken, responseTimeMs), req) <==>
      && req.complexity == Low
      && (forall c :: c in req.required ==> c == TextGeneration || c == Summarization || c == QuestionAnswering)
      && req.estimatedTokens <= maxTokens
  {
  }

  /**
    A balanced model passes the filter exactly for requests of at most
    medium complexity that do not need translation and fit its token limit.
   */
  lemma BalancedModelSuitability(req: Requirement, name: string, modelId: string, provider: string,
                                 maxTokens: int, costPerToken: real, responseTimeMs: int)
    ensures Suitable(CreateBalancedModel(name, modelId, provider, maxTokens, costPerToken, responseTimeMs), req) <==>
      && (req.complexity == Low || req.complexity == Medium)
      && Translation !in req.required
      && req.estimatedTokens <= maxTokens
  {
  }

  /** An expert model passes the filter exactly when the request fits its token limit. */
  lemma ExpertModelSuitability(req: Requirement, name: string, modelId: string, provider: string,
                               maxTokens: int, costPerToken: real, responseTimeMs: int)
    ensures Suitable(CreateExpertModel(name, modelId, provider, maxTokens, costPerToken, responseTimeMs), req) <==>
      req.estimatedTokens <= maxTokens
  {
  }

  /** The description a specialised model gets: the given one, or one listing the capability values. */
  function SpecializedDescription(capabilities: seq<Capability>, description: string): (d: string)
    ensures description != "" ==> d == description
  {
    if description != "" then description
    else "Specialized model for " + Join(CapabilityValues(capabilities), CommaSpace)
  }

  /** `create_specialized_model`: the caller's capabilities and ceiling, with the factory's defaults. */
  function CreateSpecializedModel(name: string, modelId: string, capabilities: seq<Capability>,
                                  complexityThreshold: ComplexityLevel, provider: string := CustomProvider,
                                  maxTokens: int := 4096, costPerToken: real := 0.001,
                                  responseTimeMs: int := 2000, description: string := ""): (m: CustomModel)
    ensures Carries(m, name, modelId, provider, maxTokens, costPerToken, responseTimeMs)
    ensures m.capabilities == capabilities && m.complexityThreshold == complexityThreshold
    ensures description != "" ==> m.description == description
    ensures description == "" && capabilities == [] ==> m.description == DescriptionPrefix
    ensures description == "" && capabilities != [] ==>
      && |m.description| >= |DescriptionPrefix| && m.description[..|DescriptionPrefix|] == DescriptionPrefix
      && ParseCapabilities(SplitCommaSpace(m.description[|DescriptionPrefix|..])) == Success(capabilities)
  {
    var d := SpecializedDescription(capabilities, description);
    assert description == "" && capabilities != [] ==>
      |d| >= |DescriptionPrefix| && d[..|DescriptionPrefix|] == DescriptionPrefix
      && ParseCapabilities(SplitCommaSpace(d[|DescriptionPrefix|..])) == Success(capabilities) by {
      if description == "" && capabilities != [] {
        SpecializedDescriptionRoundTrip(capabilities);
      }
    }
    CustomModel(name, modelId, provider, maxTokens, capabilities, complexityThreshold, costPerToken,
                responseTimeMs, d)
  }

  /** No capability value contains a comma. */
  lemma CapabilityValueHasNoComma(c: Capability)
    ensures ',' !in CapabilityValue(c)
  {
  }

  const DescriptionPrefix: string := "Specialized model for "

  /**
    A generated description names the capabilities recoverably: after the
    prefix, splitting on ", " and parsing gives the capability list back.
   */
  lemma SpecializedDescriptionRoundTrip(capabilities: seq<Capability>)
    requires |capabilities| > 0
    ensures var d := SpecializedDescription(capabilities, "");
      && |d| >= |DescriptionPrefix| && d[..|DescriptionPrefix|] == DescriptionPrefix
      && ParseCapabilities(SplitCommaSpace(d[|DescriptionPrefix|..])) == Success(capabilities)
  {
    var values := CapabilityValues(capabilities);
    var d := SpecializedDescription(capabilities, "");
    assert d == DescriptionPrefix + Join(values, CommaSpace);
    assert d[|DescriptionPrefix|..] == Join(values, CommaSpace);
    forall i | 0 <= i < |values|
      ensures ',' !in values[i]
    {
      CapabilityValueHasNoComma(capabilities[i]);
    }
    SplitJoin(values);
    ParseCapabilityValues(capabilities);
  }

  /**
    A configuration dictionary. A key the dictionary lacks is None; values
    are taken to have the types the factory expects.
   */
  datatype ModelConfig = ModelConfig(
    name: Option<string>,
    modelId: Option<string>,
    provider: Option<string>,
    maxTokens: Option<int>,
    capabilities: Option<seq<string>>,
    complexityThreshold: Option<string>,
    costPerToken: Option<real>,
    responseTimeMs: Option<int>,
    description: Option<string>)

  /** The KeyError for a missing key, or the ValueError for an unknown enum value. */
  datatype ConfigError = MissingKey(key: string) | BadCapability(value: string) | BadComplexity(value: string)

  /** The keys `create_model_from_config` indexes without a default. */
  predicate HasRequiredKeys(c: ModelConfig) {
    && c.name.Some? && c.modelId.Some? && c.maxTokens.Some? && c.capabilities.Some?
    && c.complexityThreshold.Some? && c.costPerToken.Some? && c.responseTimeMs.Some?
  }

  /** Whether the configuration lacks the given key. */
  predicate Lacks(c: ModelConfig, key: string) {
    match key
    case "name" => c.name.None?
    case "model_id" => c.modelId.None?
    case "max_tokens" => c.maxTokens.None?
    case "capabilities" => c.capabilities.None?
    case "complexity_threshold" => c.complexityThreshold.None?
    case "cost_per_token" => c.costPerToken.None?
    case "response_time_ms" => c.responseTimeMs.None?
    case _ => false
  }

  /** Every required key is present and both enum parses succeed. */
  predicate Parses(c: ModelConfig) {
    && HasRequiredKeys(c)
    && ParseCapabilities(c.capabilities.value).Success?
    && ParseComplexity(c.complexityThreshold.value).Some?
  }

  /** The required keys in the order the keyword arguments read them. */
  const RequiredKeys: seq<string> :=
    ["name", "model_id", "max_tokens", "capabilities", "complexity_threshold", "cost_per_token", "response_time_ms"]

  /** The configuration a model is described by, every key present. */
  function ToConfig(m: CustomModel): ModelConfig {
    ModelConfig(Some(m.name), Some(m.modelId), Some(m.provider), Some(m.maxTokens),
                Some(CapabilityValues(m.capabilities)), Some(ComplexityValue(m.complexityThreshold)),
                Some(m.costPerToken), Some(m.responseTimeMs), Some(m.description))
  }

  /** The configuration with the two optional keys filled in by their defaults. */
  function WithDefaults(c: ModelConfig): ModelConfig {
    c.(provider := Some(if c.provider.Some? then c.provider.value else CustomProvider),
       description := Some(if c.description.Some? then c.description.value else ""))
  }

  /**
    `create_model_from_config`: keyword arguments are evaluated in order, so
    the first failure among name, model_id, max_tokens, the capabilities
    (missing, then each value), the threshold (missing, then its value),
    cost_per_token and response_time_ms is the one raised.
   */
  function CreateModelFromConfig(c: ModelConfig): (r: Result<CustomModel, ConfigError>)
    ensures r.Success? <==> Parses(c)
    ensures r.Success? ==> ToConfig(r.value) == WithDefaults(c)
    ensures r.Failure? && r.error.MissingKey? ==> Lacks(c, r.error.key)
    ensures r.Failure? && r.error.BadCapability? ==>
      c.capabilities.Some? && r.error.value in c.capabilities.value && ParseCapability(r.error.value).None?
      && ParseCapabilities(c.capabilities.value) == Failure(r.error.value)
    ensures r.Failure? && r.error.BadComplexity? ==>
      c.complexityThreshold == Some(r.error.value) && ParseComplexity(r.error.value).None?
  {
    if c.name.None? then Failure(MissingKey("name"))
    else if c.modelId.None? then Failure(MissingKey("model_id"))
    else if c.maxTokens.None? then Failure(MissingKey("max_tokens"))
    else if c.capabilities.None? then Failure(MissingKey("capabilities"))
    else match ParseCapabilities(c.capabilities.value)
      case Failure(bad) => Failure(BadCapability(bad))
      case Success(capabilities) =>
        if c.complexityThreshold.None? then Failure(MissingKey("complexity_threshold"))
        else match ParseComplexity(c.complexityThreshold.value)
          case None => Failure(BadComplexity(c.complexityThreshold.value))
          case Some(threshold) =>
            if c.costPerToken.None? then Failure(MissingKey("cost_per_token"))
            else if c.responseTimeMs.None? then Failure(MissingKey("response_time_ms"))
            else
              var provider := if c.provider.Some? then c.provider.value else CustomProvider;
              var description := if c.description.Some? then c.description.value else "";
              Success(CustomModel(c.name.value, c.modelId.value, provider, c.maxTokens.value,
                                  capabilities, threshold, c.costPerToken.value,
                                  c.responseTimeMs.value, description))
  }

  /** A model's own configuration rebuilds exactly that model. */
  lemma ConfigRoundTrip(m: CustomModel)
    ensures CreateModelFromConfig(ToConfig(m)) == Success(m)
  {
    ParseCapabilityValues(m.capabilities);
    var r := CreateModelFromConfig(ToConfig(m));
    assert ToConfig(r.value) == ToConfig(m);
    ToConfigInjective(r.value, m);
  }

  /** Two models with the same configuration are the same model. */
  lemma ToConfigInjective(a: CustomModel, b: CustomModel)
    requires ToConfig(a) == ToConfig(b)
    ensures a == b
  {
    ParseCapabilityValues(a.capabilities);
    ParseCapabilityValues(b.capabilities);
    assert ParseComplexity(ComplexityValue(a.complexityThreshold)) == Some(a.complexityThreshold);
  }

  /**
    The error raised is the first in evaluation order: a missing key is
    reported only when every required key read before it is present, an
    unknown capability only when the first four keys are present, and an
    unknown threshold only when the capabilities parse.
   */
  lemma ConfigErrorOrder(c: ModelConfig)
    requires CreateModelFromConfig(c).Failure?
    ensures var e := CreateModelFromConfig(c).error;
      && (e.MissingKey? ==>
            && e.key in RequiredKeys && Lacks(c, e.key)
            && forall j :: 0 <= j < |RequiredKeys| && RequiredKeys[j] == e.key ==>
                 forall i :: 0 <= i < j ==> !Lacks(c, RequiredKeys[i]))
      && (e.BadCapability? ==> c.name.Some? && c.modelId.Some? && c.maxTokens.Some?)
      && (e.BadComplexity? ==>
            c.name.Some? && c.modelId.Some? && c.maxTokens.Some? && c.capabilities.Some?
            && ParseCapabilities(c.capabilities.value).Success?)
  {
  }

  /** The model a parsing configuration yields; it is stored under the configuration's model id. */
  function Parsed(c: ModelConfig): (m: CustomModel)
    requires Parses(c)
    ensures m.modelId == c.modelId.value
  {
    CreateModelFromConfig(c).value
  }

  /** Every configuration of the list parses. */
  predicate AllParse(cs: seq<ModelConfig>) {
    forall i :: 0 <= i < |cs| ==> Parses(cs[i])
  }

  /** A non-empty list parses throughout iff its prefix does and its last configuration does. */
  lemma AllParseSnoc(cs: seq<ModelConfig>)
    requires cs != []
    ensures AllParse(cs) <==> AllParse(cs[..|cs| - 1]) && Parses(cs[|cs| - 1])
  {
    var init := cs[..|cs| - 1];
    assert forall i :: 0 <= i < |init| ==> init[i] == cs[i];
  }

  /**
    `create_models_from_configs`: each configuration in turn is parsed and
    stored under its model id, so a later duplicate id overwrites the model
    but keeps the first position; the first parse error aborts the batch.
   */
  function CreateModelsFromConfigs(cs: seq<ModelConfig>): (r: Result<Registry, ConfigError>)
    ensures r.Success? <==> AllParse(cs)
    ensures r.Success? ==> Valid(r.value)
  {
    if cs == [] then Success([])
    else
      var init := cs[..|cs| - 1];
      AllParseSnoc(cs);
      match CreateModelsFromConfigs(init)
      case Failure(e) => Failure(e)
      case Success(reg) =>
        match CreateModelFromConfig(cs[|cs| - 1])
        case Failure(e) => Failure(e)
        case Success(m) =>
          PutValid(reg, m.modelId, m);
          Success(Put(reg, m.modelId, m))
  }

  /** A failed batch reports the error of the first configuration that does not parse. */
  lemma {:induction false} FirstConfigErrorAborts(cs: seq<ModelConfig>)
    requires CreateModelsFromConfigs(cs).Failure?
    ensures exists i :: 0 <= i < |cs| && CreateModelFromConfig(cs[i]) == Failure(CreateModelsFromConfigs(cs).error)
                        && AllParse(cs[..i])
  {
    var init := cs[..|cs| - 1];
    var e := CreateModelsFromConfigs(cs).error;
    if CreateModelsFromConfigs(init).Failure? {
      FirstConfigErrorAborts(init);
      var i :| 0 <= i < |init| && CreateModelFromConfig(init[i]) == Failure(e) && AllParse(init[..i]);
      assert init[i] == cs[i] && init[..i] == cs[..i];
    }
  }

  /** The model of the last configuration whose model id is `k`, if any. */
  function LastWithId(cs: seq<ModelConfig>, k: string): (r: Option<CustomModel>)
    requires AllParse(cs)
    ensures r.Some? ==> r.value.modelId == k
  {
    if cs == [] then None
    else
      AllParseSnoc(cs);
      var m := Parsed(cs[|cs| - 1]);
      if m.modelId == k then Some(m) else LastWithId(cs[..|cs| - 1], k)
  }

  /** Looking up an id in the batch's result gives the last configuration with that id. */
  lemma {:induction false} LastConfigWins(cs: seq<ModelConfig>, k: string)
    requires AllParse(cs)
    ensures CreateModelsFromConfigs(cs).Success?
    ensures Lookup(CreateModelsFromConfigs(cs).value, k) == LastWithId(cs, k)
  {
    if cs != [] {
      AllParseSnoc(cs);
      LastConfigWins(cs[..|cs| - 1], k);
    }
  }

  /** A batch that parses is the batch of its prefix with the last model put under its id. */
  lemma BatchSnoc(cs: seq<ModelConfig>)
    requires cs != [] && AllParse(cs)
    ensures AllParse(cs[..|cs| - 1])
    ensures CreateModelsFromConfigs(cs) ==
      Success(Put(CreateModelsFromConfigs(cs[..|cs| - 1]).value, Parsed(cs[|cs| - 1]).modelId, Parsed(cs[|cs| - 1])))
  {
    AllParseSnoc(cs);
  }

  /** No two configurations of the list share a model id. */
  predicate DistinctIds(cs: seq<ModelConfig>) {
    forall i, j :: 0 <= i < j < |cs| ==> cs[i].modelId != cs[j].modelId
  }

  /** Position `i` of `reg` holds the `i`-th configuration's model under its id. */
  predicate StoredInOrder(cs: seq<ModelConfig>, reg: Registry)
    requires AllParse(cs)
  {
    |reg| == |cs| && forall i :: 0 <= i < |cs| ==> reg[i] == Entry(cs[i].modelId.value, Parsed(cs[i]))
  }

  /** The prefix of a list with distinct ids has distinct ids, and the last id is not among the prefix's. */
  lemma DistinctIdsSnoc(cs: seq<ModelConfig>)
    requires cs != [] && DistinctIds(cs)
    ensures DistinctIds(cs[..|cs| - 1])
    ensures forall i :: 0 <= i < |cs| - 1 ==> cs[i].modelId != cs[|cs| - 1].modelId
  {
    var init := cs[..|cs| - 1];
    assert forall i :: 0 <= i < |init| ==> init[i] == cs[i];
  }

  /** The last configuration's id is not yet a key of a registry that stores the others in order. */
  lemma LastIdFresh(cs: seq<ModelConfig>, reg: Registry)
    requires cs != [] && AllParse(cs) && AllParse(cs[..|cs| - 1])
    requires StoredInOrder(cs[..|cs| - 1], reg)
    requires forall i :: 0 <= i < |cs| - 1 ==> cs[i].modelId != cs[|cs| - 1].modelId
    ensures Parsed(cs[|cs| - 1]).modelId !in Keys(reg)
  {
    var n := |cs| - 1;
    var init := cs[..n];
    var id := Parsed(cs[n]).modelId;
    forall i | 0 <= i < |reg|
      ensures Keys(reg)[i] != id
    {
      assert reg[i].key == init[i].modelId.value;
      assert init[i] == cs[i];
    }
  }

  /** Appending an entry under a fresh id to a registry stored in order keeps it stored in order. */
  lemma StoredInOrderSnoc(cs: seq<ModelConfig>, reg: Registry)
    requires cs != [] && AllParse(cs) && AllParse(cs[..|cs| - 1])
    requires StoredInOrder(cs[..|cs| - 1], reg)
    ensures StoredInOrder(cs, reg + [Entry(Parsed(cs[|cs| - 1]).modelId, Parsed(cs[|cs| - 1]))])
  {
    var n := |cs| - 1;
    var init := cs[..n];
    var m := Parsed(cs[n]);
    var reg' := reg + [Entry(m.modelId, m)];
    forall i | 0 <= i < |cs|
      ensures reg'[i] == Entry(cs[i].modelId.value, Parsed(cs[i]))
    {
      if i < n {
        assert reg'[i] == reg[i] && init[i] == cs[i];
      }
    }
  }

  /**
    With pairwise distinct model ids nothing is overwritten: position `i`
    of the result holds the `i`-th configuration's model under its id.
   */
  lemma {:induction false} DistinctIdsKeepOrder(cs: seq<ModelConfig>)
    requires AllParse(cs) && DistinctIds(cs)
    ensures CreateModelsFromConfigs(cs).Success?
    ensures StoredInOrder(cs, CreateModelsFromConfigs(cs).value)
  {
    if cs != [] {
      BatchSnoc(cs);
      DistinctIdsSnoc(cs);
      DistinctIdsKeepOrder(cs[..|cs| - 1]);
      LastIdFresh(cs, CreateModelsFromConfigs(cs[..|cs| - 1]).value);
      StoredInOrderSnoc(cs, CreateModelsFromConfigs(cs[..|cs| - 1]).value);
    }
  }

  /** The four entries of `PREDEFINED_CONFIGS`, in declaration order. */
  const PredefinedConfigs: seq<ModelConfig> := [
    ModelConfig(Some("Fast Text Model"), Some("fast-text-v1"), Some("custom"), Some(2048),
                Some(["text_generation", "summarization", "question_answering"]), Some("low"),
                Some(0.0001), Some(500), Some("Fast model for text tasks")),
    ModelConfig(Some("Creative Writer Model"), Some("creative-writer-v1"), Some("custom"), Some(4096),
                Some(["text_generation", "creative_writing", "translation"]), Some("high"),
                Some(0.0008), Some(1500), Some("Specialized for creative writing")),
    ModelConfig(Some("Code Expert Model"), Some("code-expert-v1"), Some("custom"), Some(8192),
                Some(["code_generation", "analysis", "technical_writing"]), Some("expert"),
                Some(0.002), Some(2500), Some("Expert model for coding tasks")),
    ModelConfig(Some("Multilingual Model"), Some("multilingual-v1"), Some("custom"), Some(4096),
                Some(["text_generation", "translation", "summarization"]), Some("medium"),
                Some(0.0006), Some(1200), Some("Specialized for multilingual tasks"))
  ]

  const FastText: CustomModel :=
    CustomModel("Fast Text Model", "fast-text-v1", "custom", 2048,
                [TextGeneration, Summarization, QuestionAnswering], Low, 0.0001, 500,
                "Fast model for text tasks")

  const CreativeWriter: CustomModel :=
    CustomModel("Creative Writer Model", "creative-writer-v1", "custom", 4096,
                [TextGeneration, CreativeWriting, Translation], High, 0.0008, 1500,
                "Specialized for creative writing")

  const CodeExpert: CustomModel :=
    CustomModel("Code Expert Model", "code-expert-v1", "custom", 8192,
                [CodeGeneration, DataAnalysis, TechnicalWriting], Expert, 0.002, 2500,
                "Expert model for coding tasks")

  const Multilingual: CustomModel :=
    CustomModel("Multilingual Model", "multilingual-v1", "custom", 4096,
                [TextGeneration, Translation, Summarization], Medium, 0.0006, 1200,
                "Specialized for multilingual tasks")

  /** The four predefined models under their ids, in declaration order. */
  const PredefinedRegistry: Registry :=
    [Entry("fast-text-v1", FastText), Entry("creative-writer-v1", CreativeWriter),
     Entry("code-expert-v1", CodeExpert), Entry("multilingual-v1", Multilingual)]

  /** Each predefined configuration is the configuration of its model. */
  lemma PredefinedConfigsDescribeModels()
    ensures PredefinedConfigs == [ToConfig(FastText), ToConfig(CreativeWriter),
                                  ToConfig(CodeExpert), ToConfig(Multilingual)]
  {
    assert CapabilityValues(FastText.capabilities) == PredefinedConfigs[0].capabilities.value;
    assert CapabilityValues(CreativeWriter.capabilities) == PredefinedConfigs[1].capabilities.value;
    assert CapabilityValues(CodeExpert.capabilities) == PredefinedConfigs[2].capabilities.value;
    assert CapabilityValues(Multilingual.capabilities) == PredefinedConfigs[3].capabilities.value;
  }

  /** The first predefined configuration parses into the fast text model. */
  lemma FastTextParses()
    ensures CreateModelFromConfig(PredefinedConfigs[0]) == Success(FastText)
  {
    PredefinedConfigsDescribeModels();
    ConfigRoundTrip(FastText);
  }

  /** The second predefined configuration parses into the creative writer model. */
  lemma CreativeWriterParses()
    ensures CreateModelFromConfig(PredefinedConfigs[1]) == Success(CreativeWriter)
  {
    PredefinedConfigsDescribeModels();
    ConfigRoundTrip(CreativeWriter);
  }

  /** The third predefined configuration parses into the code expert model. */
  lemma CodeExpertParses()
    ensures CreateModelFromConfig(PredefinedConfigs[2]) == Success(CodeExpert)
  {
    PredefinedConfigsDescribeModels();
    ConfigRoundTrip(CodeExpert);
  }

  /** The fourth predefined configuration parses into the multilingual model. */
  lemma MultilingualParses()
    ensures CreateModelFromConfig(PredefinedConfigs[3]) == Success(Multilingual)
  {
    PredefinedConfigsDescribeModels();
    ConfigRoundTrip(Multilingual);
  }

  /** With distinct ids the batch result is the registry that stores every model in order. */
  lemma StoredBatch(cs: seq<ModelConfig>, reg: Registry)
    requires AllParse(cs) && DistinctIds(cs) && StoredInOrder(cs, reg)
    ensures CreateModelsFromConfigs(cs) == Success(reg)
  {
    DistinctIdsKeepOrder(cs);
    var r := CreateModelsFromConfigs(cs).value;
    assert forall i :: 0 <= i < |r| ==> r[i] == reg[i];
    assert r == reg;
  }

  /** Each predefined configuration parses into the model registered under its id. */
  lemma PredefinedConfigsAllParse()
    ensures AllParse(PredefinedConfigs)
    ensures forall i :: 0 <= i < 4 ==>
      PredefinedConfigs[i].modelId == Some(PredefinedRegistry[i].key)
      && Parsed(PredefinedConfigs[i]) == PredefinedRegistry[i].model
  {
    FastTextParses();
    CreativeWriterParses();
    CodeExpertParses();
    MultilingualParses();
    forall i | 0 <= i < 4
      ensures Parses(PredefinedConfigs[i])
      ensures PredefinedConfigs[i].modelId == Some(PredefinedRegistry[i].key)
      ensures Parsed(PredefinedConfigs[i]) == PredefinedRegistry[i].model
    {
      if i == 0 {
      } else if i == 1 {
      } else if i == 2 {
      } else {
        assert i == 3;
      }
    }
  }

  /** The predefined model ids are pairwise distinct. */
  lemma PredefinedIdsDistinct()
    ensures DistinctIds(PredefinedConfigs)
  {
    var ids := ["fast-text-v1", "creative-writer-v1", "code-expert-v1", "multilingual-v1"];
    assert forall i :: 0 <= i < 4 ==> PredefinedConfigs[i].modelId == Some(ids[i]);
  }

  /** The batch parse of the predefined configurations succeeds with the four models. */
  lemma PredefinedConfigsParse()
    ensures CreateModelsFromConfigs(PredefinedConfigs) == Success(PredefinedRegistry)
  {
    PredefinedConfigsAllParse();
    PredefinedIdsDistinct();
    assert StoredInOrder(PredefinedConfigs, PredefinedRegistry);
    StoredBatch(PredefinedConfigs, PredefinedRegistry);
  }

  /** The predefined registry's keys, which are distinct. */
  lemma PredefinedRegistryKeys()
    ensures Keys(PredefinedRegistry) == ["fast-text-v1", "creative-writer-v1", "code-expert-v1", "multilingual-v1"]
    ensures Valid(PredefinedRegistry)
  {
  }

  /**
    `get_predefined_models`: every predefined configuration parses, and the
    result holds the four models under their model ids, in declaration order.
   */
  function GetPredefinedModels(): (r: Registry)
    ensures Valid(r)
    ensures Keys(r) == ["fast-text-v1", "creative-writer-v1", "code-expert-v1", "multilingual-v1"]
    ensures r == PredefinedRegistry
  {
    PredefinedConfigsParse();
    PredefinedRegistryKeys();
    CreateModelsFromConfigs(PredefinedConfigs).value
  }
}

=== FILE: history.dfy ===
/**
  Routing history and statistics: the decision tier derived from the
  analysis's complexity string (`_get_routing_decision`), the record
  `route_prompt` appends, and the counts `get_routing_stats` derives.
 */
module History {
  import opened Wrappers
  import opened Taxonomy
  import opened Descriptors
  import opened Selection

  /** The three tiers a decision can take. */
  const Tiers: set<string> := {"low", "medium", "high"}

  /**
    `_get_routing_decision`: "high" for "high" or "expert", "medium" for
    "medium", and "low" for every other string.
   */
  function RoutingDecision(complexity: string): (tier: string)
    ensures tier in Tiers
    ensures tier == "high" <==> complexity == "high" || complexity == "expert"
    ensures tier == "medium" <==> complexity == "medium"
  {
    if complexity == "high" || complexity == "expert" then "high"
    else if complexity == "medium" then "medium"
    else "low"
  }

  /** On a parsed level the tier follows the rank: rank 1 is "low", 2 is "medium", 3 and 4 are "high". */
  lemma DecisionFollowsRank(c: ComplexityLevel)
    ensures RoutingDecision(ComplexityValue(c)) == "low" <==> Rank(c) == 1
    ensures RoutingDecision(ComplexityValue(c)) == "medium" <==> Rank(c) == 2
    ensures RoutingDecision(ComplexityValue(c)) == "high" <==> Rank(c) >= 3
  {
  }

  /** One entry of `routing_history`. */
  datatype RoutingRecord = RoutingRecord(
    prompt: string,
    analysis: Analysis,
    selectedModel: string,
    modelInfo: Option<ModelInfo>,
    routingDecision: string)

  /** Every record's decision is one of the three tiers, as `route_prompt` guarantees. */
  predicate WellFormed(h: seq<RoutingRecord>) {
    forall i :: 0 <= i < |h| ==> h[i].routingDecision in Tiers
  }

  /** Appending a record with a tier decision keeps the history well formed. */
  lemma WellFormedSnoc(h: seq<RoutingRecord>, rec: RoutingRecord)
    requires WellFormed(h) && rec.routingDecision in Tiers
    ensures WellFormed(h + [rec])
  {
    assert forall i :: 0 <= i < |h| ==> (h + [rec])[i] == h[i];
  }

  /** The `routing_decision` column of the history. */
  function Decisions(h: seq<RoutingRecord>): (ds: seq<string>)
    ensures |ds| == |h|
    ensures forall i :: 0 <= i < |h| ==> ds[i] == h[i].routingDecision
  {
    if h == [] then [] else [h[0].routingDecision] + Decisions(h[1..])
  }

  /** The `selected_model` column of the history. */
  function SelectedModels(h: seq<RoutingRecord>): (ms: seq<string>)
    ensures |ms| == |h|
    ensures forall i :: 0 <= i < |h| ==> ms[i] == h[i].selectedModel
  {
    if h == [] then [] else [h[0].selectedModel] + SelectedModels(h[1..])
  }

  /** The `prompt` column of the history. */
  function Prompts(h: seq<RoutingRecord>): (ps: seq<string>)
    ensures |ps| == |h|
    ensures forall i :: 0 <= i < |h| ==> ps[i] == h[i].prompt
  {
    if h == [] then [] else [h[0].prompt] + Prompts(h[1..])
  }

  /** Appending a record appends its prompt to the prompt column. */
  lemma PromptsSnoc(h: seq<RoutingRecord>, rec: RoutingRecord)
    ensures Prompts(h + [rec]) == Prompts(h) + [rec.prompt]
  {
    assert forall i :: 0 <= i < |h| ==> (h + [rec])[i] == h[i];
  }

  /** `xs.count(x)`. */
  function Count(xs: seq<string>, x: string): nat {
    if xs == [] then 0 else (if xs[0] == x then 1 else 0) + Count(xs[1..], x)
  }

  /** Counting over a concatenation adds the counts. */
  lemma {:induction false} CountAppend(xs: seq<string>, ys: seq<string>, x: string)
    ensures Count(xs + ys, x) == Count(xs, x) + Count(ys, x)
  {
    if xs == [] {
      assert xs + ys == ys;
    } else {
      assert (xs + ys)[0] == xs[0] && (xs + ys)[1..] == xs[1..] + ys;
      CountAppend(xs[1..], ys, x);
    }
  }

  /** An element is counted at least once iff it occurs. */
  lemma {:induction false} CountPositive(xs: seq<string>, x: string)
    ensures Count(xs, x) > 0 <==> x in xs
  {
    if xs != [] {
      CountPositive(xs[1..], x);
      assert xs == [xs[0]] + xs[1..];
    }
  }

  /** The count in `xs` of every element of `s`. */
  function CountsOver(xs: seq<string>, s: set<string>): (m: map<string, nat>)
    ensures m.Keys == s
  {
    map x | x in s :: Count(xs, x)
  }

  /** `{x: xs.count(x) for x in set(xs)}`. */
  function Tally(xs: seq<string>): (m: map<string, nat>)
    ensures m.Keys == set x | x in xs
    ensures forall x :: x in m ==> m[x] == Count(xs, x)
  {
    CountsOver(xs, set x | x in xs)
  }

  /** Some key of a non-empty map. */
  ghost function PickKey(m: map<string, nat>): (k: string)
    requires |m| > 0
    ensures k in m
  {
    var k :| k in m; k
  }

  /** The sum of a map's values. */
  ghost function MapSum(m: map<string, nat>): nat
    decreases |m|
  {
    if |m| == 0 then 0
    else
      var k := PickKey(m);
      assert |m - {k}| == |m| - 1 by {
        assert (m - {k}).Keys == m.Keys - {k};
      }
      m[k] + MapSum(m - {k})
  }

  /** How many elements of `xs` lie in `s`. */
  function CountIn(xs: seq<string>, s: set<string>): nat {
    if xs == [] then 0 else (if xs[0] in s then 1 else 0) + CountIn(xs[1..], s)
  }

  /** Counting the elements in `s` splits into those equal to `k` and the rest. */
  lemma {:induction false} CountInSplit(xs: seq<string>, s: set<string>, k: string)
    requires k in s
    ensures CountIn(xs, s) == Count(xs, k) + CountIn(xs, s - {k})
  {
    if xs != [] {
      CountInSplit(xs[1..], s, k);
    }
  }

  /** When every element lies in `s`, all of them are counted. */
  lemma {:induction false} CountInAll(xs: seq<string>, s: set<string>)
    requires forall x :: x in xs ==> x in s
    ensures CountIn(xs, s) == |xs|
  {
    if xs != [] {
      assert xs[0] in xs;
      assert forall x :: x in xs[1..] ==> x in xs;
      CountInAll(xs[1..], s);
    }
  }

  /** Summing the counts of the keys in `s` counts the elements in `s`. */
  lemma {:induction false} TallySumOver(xs: seq<string>, s: set<string>)
    ensures MapSum(CountsOver(xs, s)) == CountIn(xs, s)
    decreases |s|
  {
    var m := CountsOver(xs, s);
    assert |m| == |m.Keys| == |s|;
    if |s| == 0 {
      assert s == {};
      ZeroCountIn(xs);
    } else {
      var k := PickKey(m);
      var s' := s - {k};
      assert m - {k} == CountsOver(xs, s');
      assert MapSum(m) == m[k] + MapSum(m - {k});
      TallySumOver(xs, s');
      CountInSplit(xs, s, k);
    }
  }

  /** Nothing lies in the empty set. */
  lemma {:induction false} ZeroCountIn(xs: seq<string>)
    ensures CountIn(xs, {}) == 0
  {
    if xs != [] {
      ZeroCountIn(xs[1..]);
    }
  }

  /** The counts of a tally add up to the length of the list. */
  lemma TallySum(xs: seq<string>)
    ensures MapSum(Tally(xs)) == |xs|
  {
    var s := set x | x in xs;
    TallySumOver(xs, s);
    assert forall x :: x in xs ==> x in s;
    CountInAll(xs, s);
  }

  /** What `get_routing_stats` returns: the two distributions are absent for an empty history. */
  datatype RoutingStats = RoutingStats(
    totalRoutes: nat,
    decisionDistribution: Option<map<string, nat>>,
    modelUsage: Option<map<string, nat>>)

  /**
    `get_routing_stats`: only `total_routes = 0` for an empty history;
    otherwise the number of records and the two tallies, each of which adds
    up to that number.
   */
  function GetRoutingStats(h: seq<RoutingRecord>): (st: RoutingStats)
    ensures h == [] <==> st.decisionDistribution.None?
    ensures h == [] ==> st == RoutingStats(0, None, None)
    ensures h != [] ==>
      && st.totalRoutes == |h|
      && st.decisionDistribution.Some? && st.modelUsage.Some?
      && MapSum(st.decisionDistribution.value) == |h|
      && MapSum(st.modelUsage.value) == |h|
      && st.modelUsage.value.Keys == (set i | 0 <= i < |h| :: h[i].selectedModel)
      && st.decisionDistribution.value.Keys == (set i | 0 <= i < |h| :: h[i].routingDecision)
      && (forall m :: m in st.modelUsage.value ==> st.modelUsage.value[m] == Count(SelectedModels(h), m))
      && (forall d :: d in st.decisionDistribution.value ==>
            st.decisionDistribution.value[d] == Count(Decisions(h), d))
  {
    if h == [] then RoutingStats(0, None, None)
    else
      var decisions := Decisions(h);
      var usage := SelectedModels(h);
      TallySum(decisions);
      TallySum(usage);
      ColumnKeys(h);
      RoutingStats(|h|, Some(Tally(decisions)), Some(Tally(usage)))
  }

  /** The values occurring in each column are those of the history's records. */
  lemma ColumnKeys(h: seq<RoutingRecord>)
    ensures (set x | x in SelectedModels(h)) == (set i | 0 <= i < |h| :: h[i].selectedModel)
    ensures (set x | x in Decisions(h)) == (set i | 0 <= i < |h| :: h[i].routingDecision)
  {
    var usage, decisions := SelectedModels(h), Decisions(h);
    forall x | x in usage
      ensures x in set i | 0 <= i < |h| :: h[i].selectedModel
    {
      var i :| 0 <= i < |usage| && usage[i] == x;
    }
    forall x | x in decisions
      ensures x in set i | 0 <= i < |h| :: h[i].routingDecision
    {
      var i :| 0 <= i < |decisions| && decisions[i] == x;
    }
  }

  /** The count a statistics mapping gives a key: zero when the mapping or the key is absent. */
  function CountOf(counts: Option<map<string, nat>>, k: string): nat {
    if counts.Some? && k in counts.value then counts.value[k] else 0
  }

  /** The statistics count each model's uses and each tier's decisions in the history. */
  lemma StatsCount(h: seq<RoutingRecord>, k: string)
    ensures CountOf(GetRoutingStats(h).modelUsage, k) == Count(SelectedModels(h), k)
    ensures CountOf(GetRoutingStats(h).decisionDistribution, k) == Count(Decisions(h), k)
  {
    if h != [] {
      CountPositive(SelectedModels(h), k);
      CountPositive(Decisions(h), k);
      var st := GetRoutingStats(h);
      assert k in SelectedModels(h) ==> k in st.modelUsage.value by {
        if k in SelectedModels(h) {
          var i :| 0 <= i < |h| && SelectedModels(h)[i] == k;
        }
      }
      assert k in Decisions(h) ==> k in st.decisionDistribution.value by {
        if k in Decisions(h) {
          var i :| 0 <= i < |h| && Decisions(h)[i] == k;
        }
      }
    }
  }

  /** On a well-formed history the decision distribution only has tier keys. */
  lemma DecisionKeysAreTiers(h: seq<RoutingRecord>)
    requires WellFormed(h) && h != []
    ensures GetRoutingStats(h).decisionDistribution.value.Keys <= Tiers
  {
    var ds := Decisions(h);
    forall d | d in ds
      ensures d in Tiers
    {
      var i :| 0 <= i < |ds| && ds[i] == d;
    }
  }

  /**
    Appending one record adds one route, one use of its model and one
    decision of its tier, and leaves every other count alone.
   */
  lemma {:induction false} AppendCounts(h: seq<RoutingRecord>, rec: RoutingRecord, k: string)
    ensures GetRoutingStats(h + [rec]).totalRoutes == |h| + 1
    ensures CountOf(GetRoutingStats(h + [rec]).modelUsage, k) ==
            CountOf(GetRoutingStats(h).modelUsage, k) + (if k == rec.selectedModel then 1 else 0)
    ensures CountOf(GetRoutingStats(h + [rec]).decisionDistribution, k) ==
            CountOf(GetRoutingStats(h).decisionDistribution, k) + (if k == rec.routingDecision then 1 else 0)
  {
    StatsCount(h, k);
    StatsCount(h + [rec], k);
    AppendColumns(h, rec);
    CountSnoc(SelectedModels(h), rec.selectedModel, k);
    CountSnoc(Decisions(h), rec.routingDecision, k);
  }

  /** Appending a record appends its entries to both columns. */
  lemma AppendColumns(h: seq<RoutingRecord>, rec: RoutingRecord)
    ensures SelectedModels(h + [rec]) == SelectedModels(h) + [rec.selectedModel]
    ensures Decisions(h + [rec]) == Decisions(h) + [rec.routingDecision]
  {
  }

  /** Appending one element adds one to its own count only. */
  lemma CountSnoc(xs: seq<string>, x: string, k: string)
    ensures Count(xs + [x], k) == Count(xs, k) + (if k == x then 1 else 0)
  {
    CountAppend(xs, [x], k);
    assert [x][1..] == [];
  }
}

=== FILE: registry.dfy ===
/**
  The model registry (`ModelRouter.models`), a Python dict from model name
  to descriptor. Dict iteration order is insertion order, and selection's
  stable sort makes that order observable, so the registry is an ordered
  sequence of entries with pairwise distinct keys: overwriting a key keeps
  its position, a new key is appended, removal deletes the entry.
 */
module ModelRegistry {
  import opened Wrappers
  import opened Descriptors

  datatype Entry = Entry(key: string, model: CustomModel)

  type Registry = seq<Entry>

  /** The keys in iteration order. */
  function Keys(r: Registry): (ks: seq<string>)
    ensures |ks| == |r|
    ensures forall i :: 0 <= i < |r| ==> ks[i] == r[i].key
  {
    if r == [] then [] else [r[0].key] + Keys(r[1..])
  }

  /** A dict never holds a key twice. */
  predicate Valid(r: Registry) {
    forall i, j :: 0 <= i < j < |r| ==> r[i].key != r[j].key
  }

  /** A non-empty registry is valid iff its head key is fresh and its tail is valid. */
  lemma ValidCons(r: Registry)
    requires r != []
    ensures Valid(r) <==> r[0].key !in Keys(r[1..]) && Valid(r[1..])
  {
    if r[0].key !in Keys(r[1..]) && Valid(r[1..]) {
      forall i, j | 0 <= i < j < |r|
        ensures r[i].key != r[j].key
      {
        if i == 0 {
          assert Keys(r[1..])[j - 1] == r[j].key;
        } else {
          assert r[i] == r[1..][i - 1] && r[j] == r[1..][j - 1];
        }
      }
    }
    if Valid(r) {
      forall i, j | 0 <= i < j < |r[1..]|
        ensures r[1..][i].key != r[1..][j].key
      {
        assert r[1..][i] == r[i + 1] && r[1..][j] == r[j + 1];
      }
    }
  }

  /** `models.get(k)`: the model stored under `k`, if any. */
  function Lookup(r: Registry, k: string): (res: Option<CustomModel>)
    ensures res.None? <==> k !in Keys(r)
  {
    if r == [] then None
    else if r[0].key == k then Some(r[0].model)
    else
      assert Keys(r) == [r[0].key] + Keys(r[1..]);
      Lookup(r[1..], k)
  }

  /** What `Lookup` finds is an entry stored under the key. */
  lemma {:induction false} LookupFound(r: Registry, k: string)
    requires Lookup(r, k).Some?
    ensures Entry(k, Lookup(r, k).value) in r
  {
    if r[0].key != k {
      LookupFound(r[1..], k);
      assert r == [r[0]] + r[1..];
    }
  }

  /** In a valid registry the entry under a key is the one `Lookup` returns. */
  lemma {:induction false} LookupEntry(r: Registry, i: nat)
    requires Valid(r) && i < |r|
    ensures Lookup(r, r[i].key) == Some(r[i].model)
  {
    ValidCons(r);
    if i > 0 {
      assert r[i] == r[1..][i - 1];
      assert r[0].key != r[i].key;
      LookupEntry(r[1..], i - 1);
    }
  }

  /**
    `models[k] = m` (`add_model`): an existing key keeps its position and
    gets the new model; a new key is appended at the end.
   */
  function Put(r: Registry, k: string, m: CustomModel): (r': Registry)
    ensures Lookup(r', k) == Some(m)
    ensures forall k' :: k' != k ==> Lookup(r', k') == Lookup(r, k')
    ensures k in Keys(r) ==> Keys(r') == Keys(r)
    ensures k !in Keys(r) ==> r' == r + [Entry(k, m)]
  {
    if r == [] then [Entry(k, m)]
    else if r[0].key == k then
      var r' := [Entry(k, m)] + r[1..];
      assert Keys(r') == [k] + Keys(r[1..]);
      assert Keys(r) == [k] + Keys(r[1..]);
      r'
    else
      var tail := Put(r[1..], k, m);
      PutStepLookup(r, tail, k, m);
      PutStepKeys(r, tail, k, m);
      [r[0]] + tail
  }

  /** Past a head with another key, `Put`'s lookups carry over from the tail. */
  lemma PutStepLookup(r: Registry, tail: Registry, k: string, m: CustomModel)
    requires r != [] && r[0].key != k
    requires Lookup(tail, k) == Some(m)
    requires forall k' :: k' != k ==> Lookup(tail, k') == Lookup(r[1..], k')
    ensures Lookup([r[0]] + tail, k) == Some(m)
    ensures forall k' :: k' != k ==> Lookup([r[0]] + tail, k') == Lookup(r, k')
  {
    var r' := [r[0]] + tail;
    assert r'[0] == r[0] && r'[1..] == tail;
  }

  /** Past a head with another key, `Put`'s key facts carry over from the tail. */
  lemma PutStepKeys(r: Registry, tail: Registry, k: string, m: CustomModel)
    requires r != [] && r[0].key != k
    requires k in Keys(r[1..]) ==> Keys(tail) == Keys(r[1..])
    requires k !in Keys(r[1..]) ==> tail == r[1..] + [Entry(k, m)]
    ensures k in Keys(r) ==> Keys([r[0]] + tail) == Keys(r)
    ensures k !in Keys(r) ==> [r[0]] + tail == r + [Entry(k, m)]
  {
    var r' := [r[0]] + tail;
    assert r'[0] == r[0] && r'[1..] == tail;
    assert Keys(r') == [r[0].key] + Keys(tail);
    assert Keys(r) == [r[0].key] + Keys(r[1..]);
    if k !in Keys(r) {
      assert r == [r[0]] + r[1..];
      assert r' == ([r[0]] + r[1..]) + [Entry(k, m)];
    }
  }

  /** Appending an entry appends its key. */
  lemma KeysAppend(r: Registry, e: Entry)
    ensures Keys(r + [e]) == Keys(r) + [e.key]
  {
  }

  /** `Put` keeps keys distinct. */
  lemma {:induction false} PutValid(r: Registry, k: string, m: CustomModel)
    requires Valid(r)
    ensures Valid(Put(r, k, m))
  {
    if r != [] {
      ValidCons(r);
      var r' := Put(r, k, m);
      if r[0].key != k {
        var tail := Put(r[1..], k, m);
        PutValid(r[1..], k, m);
        assert r' == [r[0]] + tail;
        assert r'[0] == r[0] && r'[1..] == tail;
        assert r[0].key !in Keys(tail) by {
          if k !in Keys(r[1..]) {
            KeysAppend(r[1..], Entry(k, m));
          }
        }
        ValidCons(r');
      } else {
        assert r'[0].key == r[0].key && r'[1..] == r[1..];
        ValidCons(r');
      }
    }
  }

  /** The keys of `ks` that are not in `present`, in their order in `ks`. */
  function Fresh(ks: seq<string>, present: seq<string>): seq<string>
  {
    if ks == [] then []
    else (if ks[0] in present then [] else [ks[0]]) + Fresh(ks[1..], present)
  }

  /** A key that `ks` does not contain makes no difference to `Fresh`. */
  lemma {:induction false} FreshIgnoresAbsent(ks: seq<string>, present: seq<string>, x: string)
    requires x !in ks
    ensures Fresh(ks, present + [x]) == Fresh(ks, present)
  {
    if ks != [] {
      assert ks[0] != x;
      assert ks[0] in present + [x] <==> ks[0] in present;
      FreshIgnoresAbsent(ks[1..], present, x);
    }
  }

  /**
    `add_custom_models`: `Put` for each entry of another dict, in that
    dict's order.
   */
  function PutAll(r: Registry, cs: Registry): (r': Registry)
    ensures forall k :: k in Keys(r') <==> k in Keys(r) || k in Keys(cs)
    decreases |cs|
  {
    if cs == [] then r
    else
      var r1 := Put(r, cs[0].key, cs[0].model);
      assert Keys(cs) == [cs[0].key] + Keys(cs[1..]);
      assert forall k :: k in Keys(r1) <==> k in Keys(r) || k == cs[0].key by {
        if cs[0].key !in Keys(r) {
          KeysAppend(r, Entry(cs[0].key, cs[0].model));
        }
      }
      PutAll(r1, cs[1..])
  }

  /**
    After `PutAll` a key of `cs` maps to its model in `cs`; every other key
    keeps its old model; the old keys keep their order at the front, followed
    by the new keys of `cs` in the order of `cs`; and keys stay distinct.
   */
  lemma {:induction false} PutAllSpec(r: Registry, cs: Registry)
    requires Valid(r) && Valid(cs)
    ensures Valid(PutAll(r, cs))
    ensures forall k :: Lookup(PutAll(r, cs), k) == (if k in Keys(cs) then Lookup(cs, k) else Lookup(r, k))
    ensures |r| <= |PutAll(r, cs)| && Keys(PutAll(r, cs))[..|r|] == Keys(r)
    ensures Keys(PutAll(r, cs)) == Keys(r) + Fresh(Keys(cs), Keys(r))
    decreases |cs|
  {
    PutAllKeys(r, cs);
    if cs != [] {
      var c := cs[0];
      var r1 := Put(r, c.key, c.model);
      PutValid(r, c.key, c.model);
      ValidCons(cs);
      PutAllSpec(r1, cs[1..]);
      var r' := PutAll(r1, cs[1..]);
      assert r' == PutAll(r, cs);
      assert Keys(cs) == [c.key] + Keys(cs[1..]);
      forall k
        ensures Lookup(r', k) == (if k in Keys(cs) then Lookup(cs, k) else Lookup(r, k))
      {
        if k == c.key {
          assert k !in Keys(cs[1..]);
          assert Lookup(r', k) == Lookup(r1, k) == Some(c.model);
        } else {
          assert Lookup(cs, k) == Lookup(cs[1..], k);
          assert k in Keys(cs) <==> k in Keys(cs[1..]);
        }
      }
      assert |r| <= |r1| && Keys(r1)[..|r|] == Keys(r) by {
        if c.key !in Keys(r) {
          KeysAppend(r, Entry(c.key, c.model));
        }
      }
      assert Keys(r')[..|r|] == Keys(r')[..|r1|][..|r|];
    }
  }

  /** `PutAll` appends the keys of `cs` that are new, in the order of `cs`. */
  lemma {:induction false} PutAllKeys(r: Registry, cs: Registry)
    requires Valid(cs)
    ensures Keys(PutAll(r, cs)) == Keys(r) + Fresh(Keys(cs), Keys(r))
    decreases |cs|
  {
    if cs != [] {
      var c := cs[0];
      var r1 := Put(r, c.key, c.model);
      ValidCons(cs);
      PutAllKeys(r1, cs[1..]);
      assert Keys(cs) == [c.key] + Keys(cs[1..]);
      assert Keys(r1) == if c.key in Keys(r) then Keys(r) else Keys(r) + [c.key] by {
        if c.key !in Keys(r) {
          KeysAppend(r, Entry(c.key, c.model));
        }
      }
      FreshCons(Keys(r), c.key, Keys(cs[1..]));
    }
  }

  /** Putting one new or old key in front of the rest of a batch, stated on the key lists. */
  lemma {:induction false} FreshCons(present: seq<string>, x: string, rest: seq<string>)
    requires x !in rest
    ensures var present' := if x in present then present else present + [x];
      present' + Fresh(rest, present') == present + Fresh([x] + rest, present)
  {
    assert ([x] + rest)[0] == x && ([x] + rest)[1..] == rest;
    assert Fresh([x] + rest, present) == (if x in present then [] else [x]) + Fresh(rest, present);
    if x !in present {
      FreshIgnoresAbsent(rest, present, x);
      assert (present + [x]) + Fresh(rest, present) == present + ([x] + Fresh(rest, present));
    }
  }

  /**
    `remove_model`: deletes the entry for `k` when there is one and reports
    whether it did.
   */
  function Remove(r: Registry, k: string): (res: (Registry, bool))
    ensures res.1 <==> k in Keys(r)
    ensures forall k' :: k' != k ==> Lookup(res.0, k') == Lookup(r, k')
    ensures !res.1 ==> res.0 == r
    ensures |res.0| <= |r|
  {
    if r == [] then (r, false)
    else if r[0].key == k then
      assert Keys(r) == [k] + Keys(r[1..]);
      (r[1..], true)
    else
      var (tail, removed) := Remove(r[1..], k);
      var r' := [r[0]] + tail;
      assert Keys(r) == [r[0].key] + Keys(r[1..]);
      assert r == [r[0]] + r[1..];
      (r', removed)
  }

  /**
    When no earlier entry has the key at position `i` (in particular on a
    valid registry), removing that key deletes exactly that position.
   */
  lemma {:induction false} RemoveAt(r: Registry, i: nat)
    requires i < |r|
    requires forall j :: 0 <= j < i ==> r[j].key != r[i].key
    ensures Remove(r, r[i].key) == (r[..i] + r[i + 1..], true)
  {
    if i == 0 {
      assert r[..0] + r[1..] == r[1..];
    } else {
      var k, t := r[i].key, r[1..];
      assert r[0].key != k;
      assert t[i - 1] == r[i];
      forall j | 0 <= j < i - 1
        ensures t[j].key != t[i - 1].key
      {
        assert t[j] == r[j + 1];
      }
      RemoveAt(t, i - 1);
      assert Remove(r, k).0 == [r[0]] + Remove(t, k).0;
      SpliceCons(r, i);
    }
  }

  /** Cutting position `i > 0` out of the tail and putting the head back cuts it out of the whole. */
  lemma SpliceCons(r: Registry, i: nat)
    requires 0 < i < |r|
    ensures [r[0]] + (r[1..][..i - 1] + r[1..][i..]) == r[..i] + r[i + 1..]
  {
    assert r[1..][..i - 1] == r[1..i] && r[1..][i..] == r[i + 1..];
    assert r[..i] == [r[0]] + r[1..i];
  }

  /** Deleting one position keeps the remaining keys distinct and drops that key. */
  lemma DeletePosition(r: Registry, i: nat)
    requires Valid(r) && i < |r|
    ensures Valid(r[..i] + r[i + 1..])
    ensures r[i].key !in Keys(r[..i] + r[i + 1..])
  {
    var s := r[..i] + r[i + 1..];
    assert forall a :: 0 <= a < |s| ==> s[a] == (if a < i then r[a] else r[a + 1]);
  }

  /**
    On a valid registry `Remove` deletes exactly one entry, the one under
    `k`, keeps the others in order and leaves `k` absent.
   */
  lemma RemoveSpec(r: Registry, k: string)
    requires Valid(r)
    ensures Valid(Remove(r, k).0)
    ensures Lookup(Remove(r, k).0, k).None?
    ensures Remove(r, k).1 ==>
      exists i :: 0 <= i < |r| && r[i].key == k && Remove(r, k).0 == r[..i] + r[i + 1..]
  {
    if k in Keys(r) {
      var i :| 0 <= i < |r| && Keys(r)[i] == k;
      RemoveAt(r, i);
      DeletePosition(r, i);
    }
  }

  /**
    `get_available_models`: a copy of the dict, with the same names in the
    same iteration order, each under the same model. Values are immutable,
    so the registry itself serves as the copy.
   */
  function AvailableModels(r: Registry): (view: Registry)
    ensures Keys(view) == Keys(r)
    ensures forall k :: Lookup(view, k) == Lookup(r, k)
    ensures Valid(r) ==> Valid(view)
  {
    r
  }

  /** `get_model_info`: None for an absent name, otherwise the model's info record. */
  function GetModelInfo(r: Registry, k: string): (info: Option<ModelInfo>)
    ensures info.None? <==> k !in Keys(r)
    ensures info.Some? ==> exists m :: Lookup(r, k) == Some(m) && info.value == Info(m)
  {
    match Lookup(r, k)
    case None => None
    case Some(m) => Some(Info(m))
  }
}

=== FILE: router.dfy ===
/**
  The router facade (`ModelRouter`): the three built-in models, the
  constructor that merges caller-supplied models over them, and
  `route_prompt`, which analyses a prompt, selects a model, and appends one
  record to the history. The language model's reply is a parameter: either
  the parsed analysis record or the text of the error that was raised.
 */
module Router {
  import opened Wrappers
  import opened Taxonomy
  import opened Descriptors
  import opened ModelRegistry
  import opened Selection
  import opened History
  import opened Analyzer

  const Gpt35Turbo: CustomModel :=
    CustomModel("GPT-3.5 Turbo", "gpt-3.5-turbo", "openai", 4096, AllCapabilities, High,
                0.0005, 2000, "Fast and efficient for most tasks")

  const Gpt4: CustomModel :=
    CustomModel("GPT-4", "gpt-4", "openai", 8192, AllCapabilities, Expert,
                0.03, 5000, "Most capable model")

  const Gpt4Turbo: CustomModel :=
    CustomModel("GPT-4 Turbo", "gpt-4-turbo-preview", "openai", 128000, AllCapabilities, Expert,
                0.01, 3000, "High capacity and speed")

  /** `_initialize_models`, in its insertion order. */
  const DefaultModels: Registry :=
    [Entry("gpt-3.5-turbo", Gpt35Turbo), Entry("gpt-4", Gpt4), Entry("gpt-4-turbo", Gpt4Turbo)]

  /**
    The built-in registry: three distinct keys, every model covers every
    capability, and the fallback name is one of them.
   */
  lemma DefaultModelsFacts()
    ensures Valid(DefaultModels)
    ensures Keys(DefaultModels) == ["gpt-3.5-turbo", "gpt-4", "gpt-4-turbo"]
    ensures FallbackModel in Keys(DefaultModels)
    ensures forall i, c :: 0 <= i < |DefaultModels| ==> c in DefaultModels[i].model.capabilities
  {
    assert Keys(DefaultModels) == ["gpt-3.5-turbo", "gpt-4", "gpt-4-turbo"];
    forall i, c | 0 <= i < |DefaultModels|
      ensures c in DefaultModels[i].model.capabilities
    {
      AllCapabilitiesComplete(c);
    }
  }

  /** The router's state: the registry and the routing history. */
  datatype ModelRouter = ModelRouter(models: Registry, history: seq<RoutingRecord>)

  /** Distinct keys and tier-valued decisions. */
  predicate RouterValid(r: ModelRouter) {
    Valid(r.models) && WellFormed(r.history)
  }

  /**
    `ModelRouter(api_key, custom_models)`: the built-in models, then each
    custom model put over them in its own order; the history starts empty.
   */
  function NewRouter(custom: Registry): (r: ModelRouter)
    requires Valid(custom)
    ensures RouterValid(r) && r.history == []
    ensures forall k :: Lookup(r.models, k) == (if k in Keys(custom) then Lookup(custom, k) else Lookup(DefaultModels, k))
    ensures |r.models| >= 3 && Keys(r.models)[..3] == Keys(DefaultModels)
    ensures Keys(r.models) == Keys(DefaultModels) + Fresh(Keys(custom), Keys(DefaultModels))
  {
    DefaultModelsFacts();
    PutAllSpec(DefaultModels, custom);
    var models := if custom == [] then DefaultModels else PutAll(DefaultModels, custom);
    ModelRouter(models, [])
  }

  /**
    `route_prompt`: analyse (the reply, or the fallback record when the call
    failed), select, and append one record. A parse error in the selection
    propagates and leaves the router as it was; the fallback analysis always
    parses, so a failed call never makes routing fail.
   */
  function RoutePrompt(router: ModelRouter, prompt: string, reply: Result<Analysis, string>)
    : (res: Result<(ModelRouter, RoutingRecord), SelectError>)
    ensures res.Failure? <==> ParseAnalysis(AnalyzePrompt(prompt, reply)).Failure?
    ensures res.Failure? ==> res.error == ParseAnalysis(AnalyzePrompt(prompt, reply)).error
    ensures reply.Failure? ==> res.Success?
    ensures res.Success? ==>
      var (r', rec) := res.value;
      && r'.models == router.models
      && r'.history == router.history + [rec]
      && rec.prompt == prompt
      && rec.analysis == AnalyzePrompt(prompt, reply)
      && SelectModel(rec.analysis, router.models) == Success(rec.selectedModel)
      && rec.modelInfo == GetModelInfo(router.models, rec.selectedModel)
      && (rec.modelInfo.None? <==> rec.selectedModel !in Keys(router.models))
      && rec.routingDecision == RoutingDecision(rec.analysis.complexity)
      && (rec.routingDecision == "high" <==> Rank(ParseAnalysis(rec.analysis).value.complexity) >= 3)
      && (rec.routingDecision == "medium" <==> Rank(ParseAnalysis(rec.analysis).value.complexity) == 2)
      && (rec.routingDecision == "low" <==> Rank(ParseAnalysis(rec.analysis).value.complexity) == 1)
  {
    var analysis := AnalyzePrompt(prompt, reply);
    match SelectModel(analysis, router.models)
    case Failure(e) => Failure(e)
    case Success(name) =>
      DecisionFollowsRank(ParseAnalysis(analysis).value.complexity);
      var rec := RoutingRecord(prompt, analysis, name, GetModelInfo(router.models, name),
                               RoutingDecision(analysis.complexity));
      Success((ModelRouter(router.models, router.history + [rec]), rec))
  }

  /** Routing keeps the router valid. */
  lemma RoutePreservesValid(router: ModelRouter, prompt: string, reply: Result<Analysis, string>)
    requires RouterValid(router)
    ensures RoutePrompt(router, prompt, reply).Success? ==>
      RouterValid(RoutePrompt(router, prompt, reply).value.0)
  {
    var res := RoutePrompt(router, prompt, reply);
    if res.Success? {
      WellFormedSnoc(router.history, res.value.1);
    }
  }

  /**
    After a successful route the statistics count one more route, one more
    use of the selected model and one more decision of the record's tier;
    no other model's or tier's count changes.
   */
  lemma RouteUpdatesStats(router: ModelRouter, prompt: string, reply: Result<Analysis, string>, k: string)
    requires RoutePrompt(router, prompt, reply).Success?
    ensures var (r', rec) := RoutePrompt(router, prompt, reply).value;
      var before, after := GetRoutingStats(router.history), GetRoutingStats(r'.history);
      && after.totalRoutes == |router.history| + 1
      && CountOf(after.modelUsage, k) == CountOf(before.modelUsage, k) + (if k == rec.selectedModel then 1 else 0)
      && CountOf(after.decisionDistribution, k) ==
         CountOf(before.decisionDistribution, k) + (if k == rec.routingDecision then 1 else 0)
  {
    var (r', rec) := RoutePrompt(router, prompt, reply).value;
    AppendCounts(router.history, rec, k);
  }

  /** One prompt of a batch with the language model's reply to it. */
  datatype Request = Request(prompt: string, reply: Result<Analysis, string>)

  /** A request whose analysis parses, so that routing it succeeds. */
  predicate Routable(q: Request) {
    ParseAnalysis(AnalyzePrompt(q.prompt, q.reply)).Success?
  }

  /** The prompts of the routable requests, in order. */
  function RoutablePrompts(qs: seq<Request>): (ps: seq<string>)
    ensures |ps| <= |qs|
  {
    if qs == [] then []
    else
      var last := qs[|qs| - 1];
      RoutablePrompts(qs[..|qs| - 1]) + (if Routable(last) then [last.prompt] else [])
  }

  /** Extending the batch by one request extends the routable prompts by that prompt when it is routable. */
  lemma RoutablePromptsStep(qs: seq<Request>, i: nat)
    requires i < |qs|
    ensures RoutablePrompts(qs[..i + 1]) ==
      RoutablePrompts(qs[..i]) + (if Routable(qs[i]) then [qs[i].prompt] else [])
  {
    assert qs[..i + 1][..i] == qs[..i];
  }

  /** One request of the batch: routed when it can be, skipped otherwise. */
  function RouteOrSkip(r: ModelRouter, q: Request): (r': ModelRouter)
    ensures r'.models == r.models
    ensures Routable(q) ==> |r'.history| == |r.history| + 1 && r'.history[..|r.history|] == r.history
                             && r'.history[|r.history|].prompt == q.prompt
    ensures !Routable(q) ==> r' == r
    ensures RouterValid(r) ==> RouterValid(r')
  {
    var res := RoutePrompt(r, q.prompt, q.reply);
    if res.Success? then
      var r' := res.value.0;
      assert r'.history == r.history + [res.value.1];
      assert RouterValid(r) ==> RouterValid(r') by {
        if RouterValid(r) {
          RoutePreservesValid(r, q.prompt, q.reply);
        }
      }
      r'
    else r
  }

  /** Appending a record for prompt `p` extends the prompts recorded from position `n` on by `p`. */
  lemma PromptsExtend(h: seq<RoutingRecord>, h': seq<RoutingRecord>, n: nat, p: string)
    requires n <= |h| && |h'| == |h| + 1 && h'[..|h|] == h && h'[|h|].prompt == p
    ensures Prompts(h'[n..]) == Prompts(h[n..]) + [p]
  {
    assert h'[n..] == h[n..] + [h'[|h|]];
    PromptsSnoc(h[n..], h'[|h|]);
  }

  /** `total_routes` is the length of the history, empty or not. */
  lemma TotalRoutes(h: seq<RoutingRecord>)
    ensures GetRoutingStats(h).totalRoutes == |h|
  {
  }

  /** The router after routing or skipping each request of a batch in turn. */
  function RouteBatch(router: ModelRouter, qs: seq<Request>): (r: ModelRouter)
    ensures r.models == router.models
  {
    if qs == [] then router
    else RouteOrSkip(RouteBatch(router, qs[..|qs| - 1]), qs[|qs| - 1])
  }

  /** Extending the batch by one request routes or skips that request. */
  lemma RouteBatchStep(router: ModelRouter, qs: seq<Request>, i: nat)
    requires i < |qs|
    ensures RouteBatch(router, qs[..i + 1]) == RouteOrSkip(RouteBatch(router, qs[..i]), qs[i])
  {
    assert qs[..i + 1][..i] == qs[..i];
  }

  /**
    Routing a batch leaves the registry alone and records exactly the
    routable prompts, in order, behind the old history; validity carries over.
   */
  lemma {:induction false} RouteBatchSpec(router: ModelRouter, qs: seq<Request>)
    ensures var r, n := RouteBatch(router, qs), |router.history|;
      && r.models == router.models
      && |r.history| == n + |RoutablePrompts(qs)|
      && r.history[..n] == router.history
      && Prompts(r.history[n..]) == RoutablePrompts(qs)
      && (RouterValid(router) ==> RouterValid(r))
  {
    var n := |router.history|;
    if qs == [] {
      assert router.history[n..] == [];
    } else {
      var init, q := qs[..|qs| - 1], qs[|qs| - 1];
      RouteBatchSpec(router, init);
      var r0 := RouteBatch(router, init);
      var r := RouteOrSkip(r0, q);
      assert RoutablePrompts(qs) == RoutablePrompts(init) + (if Routable(q) then [q.prompt] else []);
      if Routable(q) {
        assert r.history[..n] == r.history[..|r0.history|][..n];
        PromptsExtend(r0.history, r.history, n, q.prompt);
      } else {
        assert RoutablePrompts(init) + [] == RoutablePrompts(init);
      }
    }
  }

  /**
    The demonstration loop of the module: every prompt is routed in turn and
    a routing error is caught and skipped. Exactly the routable prompts get
    a record, in order, behind the old history; the registry is untouched.
   */
  method RouteAll(router: ModelRouter, requests: seq<Request>) returns (r: ModelRouter, routed: nat)
    ensures r == RouteBatch(router, requests)
    ensures r.models == router.models
    ensures routed == |RoutablePrompts(requests)|
    ensures |r.history| == |router.history| + routed
    ensures r.history[..|router.history|] == router.history
    ensures Prompts(r.history[|router.history|..]) == RoutablePrompts(requests)
    ensures GetRoutingStats(r.history).totalRoutes == |router.history| + routed
    ensures RouterValid(router) ==> RouterValid(r)
  {
    r, routed := router, 0;
    for i := 0 to |requests|
      invariant r == RouteBatch(router, requests[..i])
      invariant routed == |RoutablePrompts(requests[..i])|
    {
      RoutablePromptsStep(requests, i);
      RouteBatchStep(router, requests, i);
      if Routable(requests[i]) {
        routed := routed + 1;
      }
      r := RouteOrSkip(r, requests[i]);
    }
    assert requests[..|requests|] == requests;
    RouteBatchSpec(router, requests);
    TotalRoutes(r.history);
  }
}

=== FILE: scenarios.dfy ===
/**
  Selection on concrete registries: the three built-in models, a small
  two-model registry (a cheap, fast "high" model A registered before a
  dear, slow "expert" model B), and the built-in registry with "gpt-4"
  removed, where the fallback name is unregistered.
 */
module Scenarios {
  import opened Wrappers
  import opened Taxonomy
  import opened Descriptors
  import opened ModelRegistry
  import opened Selection
  import opened History
  import opened Analyzer
  import opened Router

  /** Every built-in model declares every capability. */
  lemma DefaultsCoverCapabilities(req: Requirement)
    ensures forall k :: 0 <= k < |DefaultModels| ==>
      forall cap :: cap in req.required ==> cap in DefaultModels[k].model.capabilities
  {
    DefaultModelsFacts();
  }

  /**
    With the built-in models, any request up to "high" complexity that fits
    in 4096 tokens goes to "gpt-3.5-turbo" whatever its priority: it is the
    fastest and cheapest, and under the string order "high" sorts before
    "expert" in a reversed sort.
   */
  lemma DefaultsPickGpt35UpToHigh(req: Requirement)
    requires Rank(req.complexity) <= 3 && req.estimatedTokens <= 4096
    ensures Choose(req, DefaultModels) == "gpt-3.5-turbo"
  {
    DefaultsCoverCapabilities(req);
    ThresholdStringOrder(High, Expert);
    ThresholdStringOrder(High, High);
    forall k | 0 <= k < |DefaultModels|
      ensures !Before(req.priority, DefaultModels[k].model, DefaultModels[0].model)
    {
      assert k == 0 || k == 1 || k == 2;
    }
    assert EarliestBest(req, DefaultModels, 0);
    ChooseEarliestBest(req, DefaultModels, 0);
  }

  /**
    An "expert" request within 8192 tokens goes to "gpt-4" under the
    accuracy priority (the first of two equal ceilings) and to
    "gpt-4-turbo" under speed or cost.
   */
  lemma DefaultsExpertWithinGpt4Limit(req: Requirement)
    requires req.complexity == Expert && req.estimatedTokens <= 8192
    ensures req.priority == "speed" || req.priority == "cost" ==> Choose(req, DefaultModels) == "gpt-4-turbo"
    ensures req.priority != "speed" && req.priority != "cost" ==> Choose(req, DefaultModels) == "gpt-4"
  {
    DefaultsCoverCapabilities(req);
    ThresholdStringOrder(Expert, Expert);
    if req.priority == "speed" || req.priority == "cost" {
      assert EarliestBest(req, DefaultModels, 2);
      ChooseEarliestBest(req, DefaultModels, 2);
    } else {
      assert EarliestBest(req, DefaultModels, 1);
      ChooseEarliestBest(req, DefaultModels, 1);
    }
  }

  /** Between 8192 and 128000 tokens only "gpt-4-turbo" is suitable, for any complexity. */
  lemma DefaultsLargeRequestsGoToTurbo(req: Requirement)
    requires 8192 < req.estimatedTokens <= 128000
    ensures Choose(req, DefaultModels) == "gpt-4-turbo"
  {
    DefaultsCoverCapabilities(req);
    ThresholdStringOrder(Expert, Expert);
    assert EarliestBest(req, DefaultModels, 2);
    ChooseEarliestBest(req, DefaultModels, 2);
  }

  /** Beyond 128000 tokens nothing is suitable and the fallback name is returned. */
  lemma DefaultsOversizedFallsBack(req: Requirement)
    requires req.estimatedTokens > 128000
    ensures !AnySuitable(req, DefaultModels)
    ensures Choose(req, DefaultModels) == FallbackModel
  {
  }

  /**
    A fresh router whose language model call fails routes a prompt of at
    most 2048 words to "gpt-3.5-turbo" with a "medium" decision, and
    reports that model's info.
   */
  lemma FailedCallRoutesToGpt35(prompt: string, error: string)
    requires WordEnds(prompt) <= 2048
    ensures var res := RoutePrompt(NewRouter([]), prompt, Failure(error));
      && res.Success?
      && res.value.1.selectedModel == "gpt-3.5-turbo"
      && res.value.1.routingDecision == "medium"
      && res.value.1.modelInfo == Some(Info(Gpt35Turbo))
      && res.value.0.history == [res.value.1]
  {
    var router := NewRouter([]);
    var a := AnalyzePrompt(prompt, Failure(error));
    var req := ParseAnalysis(a).value;
    assert router.models == DefaultModels;
    assert req.complexity == Medium && req.estimatedTokens <= 4096;
    DefaultsPickGpt35UpToHigh(req);
    DefaultModelsFacts();
    LookupEntry(DefaultModels, 0);
  }

  /**
    After "gpt-4" is removed, a request nothing can serve still selects the
    name "gpt-4", and the record carries no model info for it.
   */
  lemma FallbackNameMayBeUnregistered(prompt: string, a: Analysis)
    requires ParseAnalysis(a).Success? && a.estimatedTokens > 128000
    ensures var router := ModelRouter(Remove(DefaultModels, "gpt-4").0, []);
      var res := RoutePrompt(router, prompt, Success(a));
      && res.Success?
      && res.value.1.selectedModel == FallbackModel
      && res.value.1.modelInfo.None?
  {
    DefaultModelsFacts();
    RemoveSpec(DefaultModels, "gpt-4");
    var reg := Remove(DefaultModels, "gpt-4").0;
    assert !AnySuitable(ParseAnalysis(a).value, reg) by {
      assert forall k :: 0 <= k < |reg| ==> reg[k].model.maxTokens <= 128000 by {
        RemoveAt(DefaultModels, 1);
        assert reg == [DefaultModels[0], DefaultModels[2]];
      }
    }
  }

  /** Model A: high ceiling, text generation only, cheap and fast. */
  const ModelA: CustomModel :=
    CustomModel("A", "a", "custom", 4096, [TextGeneration], High, 0.5, 2000, "")

  /** Model B: expert ceiling, text and code generation, dear and slow. */
  const ModelB: CustomModel :=
    CustomModel("B", "b", "custom", 4096, [TextGeneration, CodeGeneration], Expert, 30.0, 5000, "")

  const RegistryAB: Registry := [Entry("A", ModelA), Entry("B", ModelB)]

  /** A medium text-generation request under the cost priority goes to the cheaper A. */
  lemma CheaperEligibleModelWins()
    ensures Choose(Requirement([TextGeneration], Medium, 100, "cost"), RegistryAB) == "A"
  {
    var req := Requirement([TextGeneration], Medium, 100, "cost");
    assert EarliestBest(req, RegistryAB, 0);
    ChooseEarliestBest(req, RegistryAB, 0);
  }

  /** The same request at expert complexity only fits under B's ceiling. */
  lemma OnlyExpertCeilingQualifies()
    ensures Choose(Requirement([TextGeneration], Expert, 100, "cost"), RegistryAB) == "B"
  {
    var req := Requirement([TextGeneration], Expert, 100, "cost");
    assert !Suitable(ModelA, req);
    assert EarliestBest(req, RegistryAB, 1);
    ChooseEarliestBest(req, RegistryAB, 1);
  }

  /** A translation request fits neither model and gets the fallback name. */
  lemma UnsupportedCapabilityFallsBack()
    ensures Choose(Requirement([Translation], Medium, 100, "cost"), RegistryAB) == FallbackModel
  {
    var req := Requirement([Translation], Medium, 100, "cost");
    assert Translation in req.required;
    assert !Suitable(ModelA, req) && !Suitable(ModelB, req);
  }
}

=== FILE: selection.dfy ===
/**
  The selection engine (`ModelRouter._select_model`): parse the analysis
  record's strings into enums, keep the registry entries that cover every
  required capability, can handle the complexity and admit the token
  estimate, fall back to the literal "gpt-4" when none is left, and
  otherwise stably sort the survivors by the priority's key and take the
  first.
 */
module Selection {
  import opened Wrappers
  import opened Taxonomy
  import opened Descriptors
  import opened ModelRegistry
  import opened Text

  /** The analyzer's record: `capabilities`, `complexity`, `estimated_tokens`, `priority`, `reasoning`. */
  datatype Analysis = Analysis(
    capabilities: seq<string>,
    complexity: string,
    estimatedTokens: int,
    priority: string,
    reasoning: string)

  /** The ValueError raised by `ModelCapability(...)` or `ComplexityLevel(...)`. */
  datatype SelectError = UnknownCapability(value: string) | UnknownComplexity(value: string)

  /** An analysis whose strings have been parsed. */
  datatype Requirement = Requirement(
    required: seq<Capability>,
    complexity: ComplexityLevel,
    estimatedTokens: int,
    priority: string)

  /** The name returned when no model is suitable, whether or not it is registered. */
  const FallbackModel: string := "gpt-4"

  /**
    The first two lines of `_select_model`: capabilities are parsed first,
    left to right, then the complexity; the first unknown string raises.
   */
  function ParseAnalysis(a: Analysis): (r: Result<Requirement, SelectError>)
    ensures r.Success? <==> ParseCapabilities(a.capabilities).Success? && ParseComplexity(a.complexity).Some?
    ensures r.Success? ==>
      && CapabilityValues(r.value.required) == a.capabilities
      && ComplexityValue(r.value.complexity) == a.complexity
      && r.value.estimatedTokens == a.estimatedTokens
      && r.value.priority == a.priority
    ensures r.Failure? && r.error.UnknownCapability? ==>
      r.error.value in a.capabilities && ParseCapability(r.error.value).None?
      && ParseCapabilities(a.capabilities) == Failure(r.error.value)
    ensures r.Failure? && r.error.UnknownComplexity? ==>
      ParseCapabilities(a.capabilities).Success? && r.error.value == a.complexity
      && ParseComplexity(a.complexity).None?
  {
    match ParseCapabilities(a.capabilities)
    case Failure(bad) => Failure(UnknownCapability(bad))
    case Success(required) =>
      match ParseComplexity(a.complexity)
      case None => Failure(UnknownComplexity(a.complexity))
      case Some(c) => Success(Requirement(required, c, a.estimatedTokens, a.priority))
  }

  /** The filter: every required capability, the complexity ceiling, and the token limit. */
  predicate Suitable(m: CustomModel, req: Requirement) {
    && (forall cap :: cap in req.required ==> cap in m.capabilities)
    && CanHandleComplexity(m, req.complexity)
    && req.estimatedTokens <= m.maxTokens
  }

  /** The least integer at or above `e`. */
  function Ceil(e: real): int {
    -((-e).Floor)
  }

  /**
    A fractional token estimate fits an integer limit iff its ceiling does,
    so an integer estimate selects exactly the models a fractional one would.
   */
  lemma CeilingFits(e: real, limit: int)
    ensures e <= limit as real <==> Ceil(e) <= limit
    ensures Ceil(e) as real - 1.0 < e <= Ceil(e) as real
  {
  }

  /** Some registry entry passes the filter. */
  predicate AnySuitable(req: Requirement, reg: Registry) {
    exists k :: 0 <= k < |reg| && Suitable(reg[k].model, req)
  }

  /** `s` is `t` with some entries dropped and the rest kept in their order. */
  predicate Subsequence(s: Registry, t: Registry)
    decreases |t|
  {
    if s == [] then true
    else if t == [] then false
    else (s[0] == t[0] && Subsequence(s[1..], t[1..])) || Subsequence(s, t[1..])
  }

  /** `suitable_models`: the entries that pass the filter, in registry order. */
  function SuitableModels(reg: Registry, req: Requirement): (s: Registry)
    ensures forall e :: e in s <==> e in reg && Suitable(e.model, req)
    ensures Subsequence(s, reg)
  {
    if reg == [] then []
    else
      var rest := SuitableModels(reg[1..], req);
      if Suitable(reg[0].model, req) then
        var s := [reg[0]] + rest;
        assert s[0] == reg[0] && s[1..] == rest;
        s
      else
        assert [] + rest == rest;
        rest
  }

  /**
    The sort key order: `a` sorts strictly before `b`. "speed" sorts by
    response time and "cost" by cost, ascending; every other priority sorts
    by the threshold's string value with `reverse=True`, so a lexicographically
    greater value comes first.
   */
  predicate Before(priority: string, a: CustomModel, b: CustomModel) {
    if priority == "speed" then a.responseTimeMs < b.responseTimeMs
    else if priority == "cost" then a.costPerToken < b.costPerToken
    else LexLess(ComplexityValue(b.complexityThreshold), ComplexityValue(a.complexityThreshold))
  }

  /** The position of a threshold's string value in code-point order: expert < high < low < medium. */
  function ValueOrder(c: ComplexityLevel): int {
    match c
    case Expert => 0
    case High => 1
    case Low => 2
    case Medium => 3
  }

  /** Comparing threshold strings is comparing their `ValueOrder`. */
  lemma ThresholdStringOrder(x: ComplexityLevel, y: ComplexityLevel)
    ensures LexLess(ComplexityValue(x), ComplexityValue(y)) <==> ValueOrder(x) < ValueOrder(y)
  {
    if x == y {
      LexLessIrreflexive(ComplexityValue(x));
    } else {
      var a, b := ComplexityValue(x), ComplexityValue(y);
      assert a[0] != b[0];
    }
  }

  /** `Before` is a strict weak order: irreflexive, and incomparability is transitive. */
  lemma BeforeStrictWeakOrder(p: string, a: CustomModel, b: CustomModel, c: CustomModel)
    ensures !Before(p, a, a)
    ensures Before(p, a, c) ==> Before(p, a, b) || Before(p, b, c)
    ensures Before(p, a, b) ==> !Before(p, b, a)
  {
    if p != "speed" && p != "cost" {
      ThresholdStringOrder(a.complexityThreshold, a.complexityThreshold);
      ThresholdStringOrder(a.complexityThreshold, b.complexityThreshold);
      ThresholdStringOrder(b.complexityThreshold, a.complexityThreshold);
      ThresholdStringOrder(a.complexityThreshold, c.complexityThreshold);
      ThresholdStringOrder(c.complexityThreshold, a.complexityThreshold);
      ThresholdStringOrder(b.complexityThreshold, c.complexityThreshold);
      ThresholdStringOrder(c.complexityThreshold, b.complexityThreshold);
    }
  }

  /** No later entry sorts strictly before an earlier one. */
  predicate Sorted(p: string, s: seq<Entry>) {
    forall i, j :: 0 <= i < j < |s| ==> !Before(p, s[j].model, s[i].model)
  }

  /**
    Stable insertion: `e` goes in front of the first entry that does not
    sort strictly before it, so entries with an equal key stay in input order.
   */
  function Insert(p: string, e: Entry, s: seq<Entry>): (r: seq<Entry>)
    ensures |r| == |s| + 1
    ensures multiset(r) == multiset(s) + multiset{e}
  {
    if s == [] then [e]
    else if Before(p, s[0].model, e.model) then
      assert s == [s[0]] + s[1..];
      [s[0]] + Insert(p, e, s[1..])
    else [e] + s
  }

  /** A list with a head is sorted iff nothing after the head sorts before it and the tail is sorted. */
  lemma SortedCons(p: string, x: Entry, t: seq<Entry>)
    ensures Sorted(p, [x] + t) <==> (forall y :: y in t ==> !Before(p, y.model, x.model)) && Sorted(p, t)
  {
    var r := [x] + t;
    assert forall j :: 1 <= j < |r| ==> r[j] == t[j - 1];
    if Sorted(p, r) {
      forall y | y in t
        ensures !Before(p, y.model, x.model)
      {
        var j :| 0 <= j < |t| && t[j] == y;
        assert r[0] == x && r[j + 1] == y;
        assert !Before(p, r[j + 1].model, r[0].model);
      }
      forall i, j | 0 <= i < j < |t|
        ensures !Before(p, t[j].model, t[i].model)
      {
        assert r[i + 1] == t[i] && r[j + 1] == t[j];
      }
    }
  }

  /** Inserting into a sorted list keeps it sorted. */
  lemma {:induction false} InsertSorted(p: string, e: Entry, s: seq<Entry>)
    requires Sorted(p, s)
    ensures Sorted(p, Insert(p, e, s))
  {
    if s == [] {
    } else {
      SortedCons(p, s[0], s[1..]);
      assert [s[0]] + s[1..] == s;
      if Before(p, s[0].model, e.model) {
        var tail := Insert(p, e, s[1..]);
        InsertSorted(p, e, s[1..]);
        forall y | y in tail
          ensures !Before(p, y.model, s[0].model)
        {
          assert y in multiset(tail);
          if y != e {
            assert y in multiset(s[1..]);
          } else {
            BeforeStrictWeakOrder(p, s[0].model, e.model, e.model);
          }
        }
        SortedCons(p, s[0], tail);
      } else {
        forall y | y in s
          ensures !Before(p, y.model, e.model)
        {
          if y != s[0] {
            var j :| 0 <= j < |s| && s[j] == y;
            assert y in s[1..] by { assert s[1..][j - 1] == y; }
          }
          BeforeStrictWeakOrder(p, y.model, s[0].model, e.model);
          BeforeStrictWeakOrder(p, s[0].model, s[0].model, s[0].model);
        }
        SortedCons(p, e, s);
      }
    }
  }

  /**
    `suitable_models.sort(key=...)`: a stable sort by the priority's key,
    modelled as insertion sort from the back; the result is a sorted
    permutation of its input.
   */
  function SortByPriority(p: string, s: seq<Entry>): (r: seq<Entry>)
    ensures |r| == |s| && multiset(r) == multiset(s)
    ensures Sorted(p, r)
  {
    if s == [] then []
    else
      var rest := SortByPriority(p, s[1..]);
      InsertSorted(p, s[0], rest);
      assert s == [s[0]] + s[1..];
      Insert(p, s[0], rest)
  }

  /**
    Position `i` holds the earliest suitable entry with a best key: it is
    suitable, no suitable entry sorts strictly before it, and it sorts
    strictly before every suitable entry that precedes it.
   */
  predicate EarliestBest(req: Requirement, reg: Registry, i: int) {
    && 0 <= i < |reg|
    && Suitable(reg[i].model, req)
    && (forall k :: 0 <= k < |reg| && Suitable(reg[k].model, req) ==>
          !Before(req.priority, reg[k].model, reg[i].model))
    && (forall k :: 0 <= k < i && Suitable(reg[k].model, req) ==>
          Before(req.priority, reg[i].model, reg[k].model))
  }

  /** At most one position is the earliest best. */
  lemma EarliestBestUnique(req: Requirement, reg: Registry, i: int, j: int)
    requires EarliestBest(req, reg, i) && EarliestBest(req, reg, j)
    ensures i == j
  {
  }

  /** An unsuitable head shifts the earliest best position of the tail by one. */
  lemma EarliestBestSkip(req: Requirement, reg: Registry, i: int)
    requires reg != [] && !Suitable(reg[0].model, req)
    requires EarliestBest(req, reg[1..], i)
    ensures EarliestBest(req, reg, i + 1)
  {
    assert forall k :: 1 <= k < |reg| ==> reg[k] == reg[1..][k - 1];
  }

  /** A suitable head that nothing suitable sorts strictly before is the earliest best. */
  lemma EarliestBestHead(req: Requirement, reg: Registry)
    requires reg != [] && Suitable(reg[0].model, req)
    requires forall k :: 1 <= k < |reg| && Suitable(reg[k].model, req) ==>
               !Before(req.priority, reg[k].model, reg[0].model)
    ensures EarliestBest(req, reg, 0)
  {
    BeforeStrictWeakOrder(req.priority, reg[0].model, reg[0].model, reg[0].model);
  }

  /** A suitable head loses to the tail's earliest best when that one sorts strictly before it. */
  lemma EarliestBestBeatsHead(req: Requirement, reg: Registry, i: int)
    requires reg != [] && Suitable(reg[0].model, req)
    requires EarliestBest(req, reg[1..], i)
    requires Before(req.priority, reg[i + 1].model, reg[0].model)
    ensures EarliestBest(req, reg, i + 1)
  {
    assert forall k :: 1 <= k < |reg| ==> reg[k] == reg[1..][k - 1];
    BeforeStrictWeakOrder(req.priority, reg[i + 1].model, reg[0].model, reg[i + 1].model);
  }

  /** A suitable head wins over the tail's earliest best when that one does not sort strictly before it. */
  lemma EarliestBestKeepsHead(req: Requirement, reg: Registry, i: int)
    requires reg != [] && Suitable(reg[0].model, req)
    requires EarliestBest(req, reg[1..], i)
    requires !Before(req.priority, reg[i + 1].model, reg[0].model)
    ensures EarliestBest(req, reg, 0)
  {
    assert forall k :: 1 <= k < |reg| ==> reg[k] == reg[1..][k - 1];
    forall k | 1 <= k < |reg| && Suitable(reg[k].model, req)
      ensures !Before(req.priority, reg[k].model, reg[0].model)
    {
      BeforeStrictWeakOrder(req.priority, reg[k].model, reg[i + 1].model, reg[0].model);
    }
    EarliestBestHead(req, reg);
  }

  /** Some entry passes the filter iff the filtered list is non-empty. */
  lemma AnySuitableIff(req: Requirement, reg: Registry)
    ensures AnySuitable(req, reg) <==> SuitableModels(reg, req) != []
  {
    var f := SuitableModels(reg, req);
    if f != [] {
      assert f[0] in f;
    }
    if AnySuitable(req, reg) {
      var k :| 0 <= k < |reg| && Suitable(reg[k].model, req);
      assert reg[k] in f;
    }
  }

  /** The suitable entries of a registry with a head. */
  lemma SuitableModelsCons(req: Requirement, reg: Registry)
    requires reg != []
    ensures SuitableModels(reg, req) ==
      if Suitable(reg[0].model, req) then [reg[0]] + SuitableModels(reg[1..], req)
      else SuitableModels(reg[1..], req)
    ensures AnySuitable(req, reg[1..]) <==> SuitableModels(reg[1..], req) != []
  {
    AnySuitableIff(req, reg[1..]);
    assert [] + SuitableModels(reg[1..], req) == SuitableModels(reg[1..], req);
  }

  /** Sorting a list with a head inserts the head into the sorted tail. */
  lemma SortCons(p: string, e: Entry, t: seq<Entry>)
    ensures SortByPriority(p, [e] + t) == Insert(p, e, SortByPriority(p, t))
  {
    assert ([e] + t)[0] == e && ([e] + t)[1..] == t;
  }

  /** Inserting into a non-empty list puts the old head first iff it sorts strictly before the new entry. */
  lemma InsertHead(p: string, e: Entry, s: seq<Entry>)
    requires s != []
    ensures Insert(p, e, s)[0] == if Before(p, s[0].model, e.model) then s[0] else e
  {
  }

  /** The head of the stably sorted suitable entries is the earliest best entry. */
  lemma {:induction false} SortedHeadIsEarliestBest(req: Requirement, reg: Registry)
    requires AnySuitable(req, reg)
    ensures SortByPriority(req.priority, SuitableModels(reg, req)) != []
    ensures exists i :: EarliestBest(req, reg, i)
                        && SortByPriority(req.priority, SuitableModels(reg, req))[0] == reg[i]
  {
    var p := req.priority;
    SuitableModelsCons(req, reg);
    var f' := SuitableModels(reg[1..], req);
    if !Suitable(reg[0].model, req) {
      assert AnySuitable(req, reg[1..]) by {
        var k :| 0 <= k < |reg| && Suitable(reg[k].model, req);
        assert reg[1..][k - 1] == reg[k];
      }
      SortedHeadIsEarliestBest(req, reg[1..]);
      var i :| EarliestBest(req, reg[1..], i) && SortByPriority(p, f')[0] == reg[1..][i];
      EarliestBestSkip(req, reg, i);
    } else {
      if AnySuitable(req, reg[1..]) {
        SortedHeadIsEarliestBest(req, reg[1..]);
      }
      SortedHeadSuitableHead(req, reg);
    }
  }

  /**
    The inductive step of `SortedHeadIsEarliestBest` when the head is
    suitable: inserting it in front of the tail's sorted head keeps or
    replaces that head exactly as the earliest best entry does.
   */
  lemma SortedHeadSuitableHead(req: Requirement, reg: Registry)
    requires reg != [] && Suitable(reg[0].model, req)
    requires AnySuitable(req, reg[1..]) ==>
      exists i :: EarliestBest(req, reg[1..], i)
                  && SortByPriority(req.priority, SuitableModels(reg[1..], req))[0] == reg[1..][i]
    ensures SortByPriority(req.priority, SuitableModels(reg, req)) != []
    ensures exists i :: EarliestBest(req, reg, i)
                        && SortByPriority(req.priority, SuitableModels(reg, req))[0] == reg[i]
  {
    var p, e := req.priority, reg[0];
    SuitableModelsCons(req, reg);
    var f' := SuitableModels(reg[1..], req);
    SortCons(p, e, f');
    if !AnySuitable(req, reg[1..]) {
      EarliestBestHead(req, reg);
    } else {
      var i :| EarliestBest(req, reg[1..], i) && SortByPriority(p, f')[0] == reg[1..][i];
      assert reg[1..][i] == reg[i + 1];
      InsertHead(p, e, SortByPriority(p, f'));
      if Before(p, reg[i + 1].model, e.model) {
        EarliestBestBeatsHead(req, reg, i);
      } else {
        EarliestBestKeepsHead(req, reg, i);
      }
    }
  }

  /** The selection on a parsed requirement: fallback when nothing is suitable, else the sorted head. */
  function Choose(req: Requirement, reg: Registry): (name: string)
    ensures !AnySuitable(req, reg) ==> name == FallbackModel
    ensures AnySuitable(req, reg) ==> exists i :: EarliestBest(req, reg, i) && reg[i].key == name
  {
    var suitable := SuitableModels(reg, req);
    if suitable == [] then
      FallbackModel
    else
      assert suitable[0] in suitable;
      SortedHeadIsEarliestBest(req, reg);
      SortByPriority(req.priority, suitable)[0].key
  }

  /** `_select_model`: the parse errors propagate; otherwise the chosen name. */
  function SelectModel(a: Analysis, reg: Registry): (r: Result<string, SelectError>)
    ensures r.Failure? <==> ParseAnalysis(a).Failure?
    ensures r.Success? && r.value != FallbackModel ==> r.value in Keys(reg)
  {
    match ParseAnalysis(a)
    case Failure(e) => Failure(e)
    case Success(req) =>
      var name := Choose(req, reg);
      assert name != FallbackModel ==> name in Keys(reg) by {
        if name != FallbackModel {
          var i :| EarliestBest(req, reg, i) && reg[i].key == name;
          assert Keys(reg)[i] == name;
        }
      }
      Success(name)
  }

  /** The registry position of the chosen entry, when some entry is suitable. */
  ghost function ChosenIndex(req: Requirement, reg: Registry): (i: int)
    requires AnySuitable(req, reg)
    ensures EarliestBest(req, reg, i) && reg[i].key == Choose(req, reg)
  {
    var name := Choose(req, reg);
    var i :| EarliestBest(req, reg, i) && reg[i].key == name;
    i
  }

  /** Whatever position is the earliest best, its key is the chosen name. */
  lemma ChooseEarliestBest(req: Requirement, reg: Registry, j: int)
    requires EarliestBest(req, reg, j)
    ensures Choose(req, reg) == reg[j].key
  {
    assert AnySuitable(req, reg);
    EarliestBestUnique(req, reg, ChosenIndex(req, reg), j);
  }

  /** In a valid registry the chosen name's entry is the earliest best one. */
  lemma ChooseIsEarliestBest(req: Requirement, reg: Registry)
    requires Valid(reg) && AnySuitable(req, reg)
    ensures Choose(req, reg) in Keys(reg)
    ensures forall i :: 0 <= i < |reg| && reg[i].key == Choose(req, reg) ==> EarliestBest(req, reg, i)
  {
    var i0 := ChosenIndex(req, reg);
    assert Keys(reg)[i0] == Choose(req, reg);
  }

  /**
    A successful selection either names an entry that passes the filter for
    the analysis's own strings, or, when no entry passes it (an empty
    registry included), is the literal "gpt-4".
   */
  lemma SelectHonoursFilter(a: Analysis, reg: Registry)
    requires ParseAnalysis(a).Success?
    ensures SelectModel(a, reg).Success?
    ensures !AnySuitable(ParseAnalysis(a).value, reg) ==> SelectModel(a, reg).value == FallbackModel
    ensures reg == [] ==> SelectModel(a, reg).value == FallbackModel
    ensures AnySuitable(ParseAnalysis(a).value, reg) ==>
      var i := ChosenIndex(ParseAnalysis(a).value, reg);
      && reg[i].key == SelectModel(a, reg).value
      && (forall j :: 0 <= j < |a.capabilities| ==>
            ParseCapability(a.capabilities[j]).Some?
            && ParseCapability(a.capabilities[j]).value in reg[i].model.capabilities)
      && CanHandleComplexity(reg[i].model, ParseComplexity(a.complexity).value)
      && a.estimatedTokens <= reg[i].model.maxTokens
  {
    var req := ParseAnalysis(a).value;
    if AnySuitable(req, reg) {
      var i := ChosenIndex(req, reg);
      forall j | 0 <= j < |a.capabilities|
        ensures ParseCapability(a.capabilities[j]).Some?
        ensures ParseCapability(a.capabilities[j]).value in reg[i].model.capabilities
      {
        assert CapabilityValue(req.required[j]) == a.capabilities[j];
        assert req.required[j] in req.required;
      }
      assert ParseComplexity(a.complexity).value == req.complexity;
    }
  }

  /** An empty capability list parses and constrains nothing: only the ceiling and the token limit filter. */
  lemma EmptyCapabilitiesUnconstrained(a: Analysis, m: CustomModel)
    requires a.capabilities == [] && ParseComplexity(a.complexity).Some?
    ensures ParseAnalysis(a).Success?
    ensures Suitable(m, ParseAnalysis(a).value) <==>
      CanHandleComplexity(m, ParseComplexity(a.complexity).value) && a.estimatedTokens <= m.maxTokens
  {
    assert ParseCapabilities(a.capabilities) == Success([]);
  }

  /**
    Priority "speed": no suitable model answers strictly faster than the
    chosen one, and every suitable model registered before it is strictly
    slower, so among equally fast models the first registered wins.
   */
  lemma SpeedPicksEarliestFastest(req: Requirement, reg: Registry)
    requires req.priority == "speed" && AnySuitable(req, reg)
    ensures var i := ChosenIndex(req, reg);
      && reg[i].key == Choose(req, reg) && Suitable(reg[i].model, req)
      && (forall k :: 0 <= k < |reg| && Suitable(reg[k].model, req) ==>
            reg[i].model.responseTimeMs <= reg[k].model.responseTimeMs)
      && (forall k :: 0 <= k < i && Suitable(reg[k].model, req) ==>
            reg[i].model.responseTimeMs < reg[k].model.responseTimeMs)
  {
  }

  /**
    Priority "cost": no suitable model is strictly cheaper than the chosen
    one, and every suitable model registered before it is strictly dearer.
   */
  lemma CostPicksEarliestCheapest(req: Requirement, reg: Registry)
    requires req.priority == "cost" && AnySuitable(req, reg)
    ensures var i := ChosenIndex(req, reg);
      && reg[i].key == Choose(req, reg) && Suitable(reg[i].model, req)
      && (forall k :: 0 <= k < |reg| && Suitable(reg[k].model, req) ==>
            reg[i].model.costPerToken <= reg[k].model.costPerToken)
      && (forall k :: 0 <= k < i && Suitable(reg[k].model, req) ==>
            reg[i].model.costPerToken < reg[k].model.costPerToken)
  {
  }

  /**
    Any other priority ("accuracy" included): the chosen model's threshold
    string is the greatest among the suitable ones ("medium" > "low" >
    "high" > "expert"), and it is the first registered with that string.
    This is not the highest ceiling: a suitable "high" model beats an
    "expert" one.
   */
  lemma AccuracyPicksGreatestThresholdString(req: Requirement, reg: Registry)
    requires req.priority != "speed" && req.priority != "cost" && AnySuitable(req, reg)
    ensures var i := ChosenIndex(req, reg);
      && reg[i].key == Choose(req, reg) && Suitable(reg[i].model, req)
      && (forall k :: 0 <= k < |reg| && Suitable(reg[k].model, req) ==>
            ValueOrder(reg[k].model.complexityThreshold) <= ValueOrder(reg[i].model.complexityThreshold))
      && (forall k :: 0 <= k < i && Suitable(reg[k].model, req) ==>
            ValueOrder(reg[k].model.complexityThreshold) < ValueOrder(reg[i].model.complexityThreshold))
  {
    var i := ChosenIndex(req, reg);
    var ti := reg[i].model.complexityThreshold;
    forall k | 0 <= k < |reg| && Suitable(reg[k].model, req)
      ensures ValueOrder(reg[k].model.complexityThreshold) <= ValueOrder(ti)
      ensures k < i ==> ValueOrder(reg[k].model.complexityThreshold) < ValueOrder(ti)
    {
      ThresholdStringOrder(ti, reg[k].model.complexityThreshold);
      ThresholdStringOrder(reg[k].model.complexityThreshold, ti);
    }
  }

  /** The threshold strings in Python's string order: "expert" < "high" < "low" < "medium". */
  lemma ThresholdStringsAscending()
    ensures LexLess("expert", "high") && LexLess("high", "low") && LexLess("low", "medium")
  {
    ThresholdStringOrder(Expert, High);
    ThresholdStringOrder(High, Low);
    ThresholdStringOrder(Low, Medium);
  }
}

=== FILE: taxonomy.dfy ===
/**
  The two closed enumerations shared by requirements and model descriptors:
  `ModelCapability` (eight task kinds) and `ComplexityLevel` (four levels),
  each with its string value, the parser that Python's `Enum(value)` call
  performs, and the numeric rank table used for ceiling checks.
 */
module Taxonomy {
  import opened Wrappers

  /** The eight task kinds a model may declare. */
  datatype Capability =
    | TextGeneration
    | CodeGeneration
    | DataAnalysis
    | CreativeWriting
    | TechnicalWriting
    | Translation
    | Summarization
    | QuestionAnswering

  /** Every capability, in declaration order. */
  const AllCapabilities: seq<Capability> :=
    [TextGeneration, CodeGeneration, DataAnalysis, CreativeWriting,
     TechnicalWriting, Translation, Summarization, QuestionAnswering]

  /** The list names every capability. */
  lemma AllCapabilitiesComplete(c: Capability)
    ensures c in AllCapabilities
  {
  }

  /** The enum member's `.value`. */
  function CapabilityValue(c: Capability): string {
    match c
    case TextGeneration => "text_generation"
    case CodeGeneration => "code_generation"
    case DataAnalysis => "analysis"
    case CreativeWriting => "creative_writing"
    case TechnicalWriting => "technical_writing"
    case Translation => "translation"
    case Summarization => "summarization"
    case QuestionAnswering => "question_answering"
  }

  /** `ModelCapability(s)`: the member whose value is `s`; None where Python raises ValueError. */
  function ParseCapability(s: string): (r: Option<Capability>)
    ensures forall c :: r == Some(c) <==> CapabilityValue(c) == s
  {
    if s == "text_generation" then Some(TextGeneration)
    else if s == "code_generation" then Some(CodeGeneration)
    else if s == "analysis" then Some(DataAnalysis)
    else if s == "creative_writing" then Some(CreativeWriting)
    else if s == "technical_writing" then Some(TechnicalWriting)
    else if s == "translation" then Some(Translation)
    else if s == "summarization" then Some(Summarization)
    else if s == "question_answering" then Some(QuestionAnswering)
    else None
  }

  /** The values of a capability list, element by element. */
  function CapabilityValues(cs: seq<Capability>): (ss: seq<string>)
    ensures |ss| == |cs|
    ensures forall i :: 0 <= i < |cs| ==> ss[i] == CapabilityValue(cs[i])
  {
    if cs == [] then [] else [CapabilityValue(cs[0])] + CapabilityValues(cs[1..])
  }

  /**
    `[ModelCapability(cap) for cap in ss]`: parses left to right and fails
    with the first string that names no capability.
   */
  function ParseCapabilities(ss: seq<string>): (r: Result<seq<Capability>, string>)
    ensures r.Success? <==> forall i :: 0 <= i < |ss| ==> ParseCapability(ss[i]).Some?
    ensures r.Success? ==> CapabilityValues(r.value) == ss
    ensures r.Failure? ==>
      exists i :: 0 <= i < |ss| && ss[i] == r.error && ParseCapability(ss[i]).None?
                  && forall j :: 0 <= j < i ==> ParseCapability(ss[j]).Some?
  {
    if ss == [] then Success([])
    else match ParseCapability(ss[0])
      case None => Failure(ss[0])
      case Some(c) =>
        match ParseCapabilities(ss[1..])
        case Failure(bad) =>
          assert forall j :: 1 <= j < |ss| ==> ss[j] == ss[1..][j - 1];
          Failure(bad)
        case Success(cs) =>
          assert CapabilityValues([c] + cs) == [CapabilityValue(c)] + CapabilityValues(cs);
          Success([c] + cs)
  }

  /** Parsing the values of a capability list gives the list back. */
  lemma {:induction false} ParseCapabilityValues(cs: seq<Capability>)
    ensures ParseCapabilities(CapabilityValues(cs)) == Success(cs)
  {
    var ss := CapabilityValues(cs);
    forall i | 0 <= i < |ss|
      ensures ParseCapability(ss[i]).Some?
    {
      assert ParseCapability(ss[i]) == Some(cs[i]);
    }
    var cs' := ParseCapabilities(ss).value;
    assert |cs'| == |cs|;
    forall i | 0 <= i < |cs|
      ensures cs'[i] == cs[i]
    {
      assert CapabilityValue(cs'[i]) == ss[i] == CapabilityValue(cs[i]);
      assert ParseCapability(ss[i]) == Some(cs'[i]);
    }
    assert cs' == cs;
  }

  /** The four complexity levels. */
  datatype ComplexityLevel = Low | Medium | High | Expert

  /** The enum member's `.value`. */
  function ComplexityValue(c: ComplexityLevel): string {
    match c
    case Low => "low"
    case Medium => "medium"
    case High => "high"
    case Expert => "expert"
  }

  /** `ComplexityLevel(s)`: the level whose value is `s`; None where Python raises ValueError. */
  function ParseComplexity(s: string): (r: Option<ComplexityLevel>)
    ensures forall c :: r == Some(c) <==> ComplexityValue(c) == s
  {
    if s == "low" then Some(Low)
    else if s == "medium" then Some(Medium)
    else if s == "high" then Some(High)
    else if s == "expert" then Some(Expert)
    else None
  }

  /** The rank table of `can_handle_complexity`: low=1, medium=2, high=3, expert=4. */
  function Rank(c: ComplexityLevel): (r: int)
    ensures 1 <= r <= 4
  {
    match c
    case Low => 1
    case Medium => 2
    case High => 3
    case Expert => 4
  }

  /** The rank table is a strict total order low < medium < high < expert. */
  lemma RankIsTotalOrder(a: ComplexityLevel, b: ComplexityLevel)
    ensures Rank(a) == Rank(b) <==> a == b
    ensures Rank(Low) < Rank(Medium) < Rank(High) < Rank(Expert)
  {
  }
}

=== FILE: text.dfy ===
/**
  The few Python string operations the core relies on: `<` on `str`
  (code-point lexicographic order), `sep.join(xs)` and `s.split(sep)`.
 */
module Text {

  /** Python's `a < b` on strings: lexicographic by code point, a proper prefix first. */
  predicate LexLess(a: string, b: string)
    decreases |a|
  {
    if |a| == 0 then |b| > 0
    else if |b| == 0 then false
    else a[0] < b[0] || (a[0] == b[0] && LexLess(a[1..], b[1..]))
  }

  /** No string is less than itself. */
  lemma {:induction false} LexLessIrreflexive(a: string)
    ensures !LexLess(a, a)
    decreases |a|
  {
    if |a| > 0 {
      LexLessIrreflexive(a[1..]);
    }
  }

  /** `sep.join(xs)`. */
  function Join(xs: seq<string>, sep: string): string {
    if xs == [] then ""
    else if |xs| == 1 then xs[0]
    else xs[0] + sep + Join(xs[1..], sep)
  }

  /** The separator `", "` that `create_specialized_model` joins with. */
  const CommaSpace: string := ", "

  /**
    `s.split(", ")`: the pieces between the non-overlapping occurrences of
    the separator, found left to right.
   */
  function SplitCommaSpace(s: string): (parts: seq<string>)
    ensures |parts| > 0
    decreases |s|
  {
    if s == "" then [""]
    else if |s| >= 2 && s[..2] == CommaSpace then [""] + SplitCommaSpace(s[2..])
    else
      var rest := SplitCommaSpace(s[1..]);
      [[s[0]] + rest[0]] + rest[1..]
  }

  /** A piece without a comma is split off whole at the first separator after it. */
  lemma {:induction false} SplitAfterPiece(a: string, t: string)
    requires ',' !in a
    ensures SplitCommaSpace(a + CommaSpace + t) == [a] + SplitCommaSpace(t)
    decreases |a|
  {
    var s := a + CommaSpace + t;
    if a == "" {
      assert s == CommaSpace + t;
      assert s[..2] == CommaSpace && s[2..] == t;
    } else {
      assert s[0] == a[0] != ',';
      assert s[..2] != CommaSpace;
      assert s[1..] == a[1..] + CommaSpace + t;
      SplitAfterPiece(a[1..], t);
      assert [a[0]] + a[1..] == a;
    }
  }

  /** A string without a comma splits into itself. */
  lemma {:induction false} SplitNoComma(a: string)
    requires ',' !in a
    ensures SplitCommaSpace(a) == [a]
    decreases |a|
  {
    if a != "" {
      assert !(|a| >= 2 && a[..2] == CommaSpace) by {
        if |a| >= 2 {
          assert a[..2][0] == a[0] != ',';
        }
      }
      SplitNoComma(a[1..]);
      assert [a[0]] + a[1..] == a;
    }
  }

  /** Splitting a join of comma-free pieces on the separator gives the pieces back. */
  lemma {:induction false} SplitJoin(xs: seq<string>)
    requires |xs| > 0
    requires forall i :: 0 <= i < |xs| ==> ',' !in xs[i]
    ensures SplitCommaSpace(Join(xs, CommaSpace)) == xs
  {
    if |xs| == 1 {
      SplitNoComma(xs[0]);
    } else {
      SplitJoin(xs[1..]);
      SplitAfterPiece(xs[0], Join(xs[1..], CommaSpace));
      assert [xs[0]] + xs[1..] == xs;
    }
  }
}

=== FILE: wrappers.dfy ===
/** Option and Result: the absent value and the raised error of the Python code. */
module Wrappers {

  /** A value that may be absent (`Optional[...]`, a missing dictionary key). */
  datatype Option<+T> = None | Some(value: T)

  /** A computation that either returns a value or raises an error. */
  datatype Result<+R, +E> = Success(value: R) | Failure(error: E)
}
